=== FILE: README.md ===
# hand_pose training orchestration, modelled in Dafny

This project models the orchestration around the hand-pose network of the `hand_pose`
repository. The network, the datasets and the tensors stay out of it; what is modelled is
the bookkeeping around them.

- **Snapshots** (`Trainer.save_model`, `Trainer.load_model` and `Tester` in
  `common/base.py`), in module `Snapshots`:
  - the name `snapshot_<n>.pth.tar` under which a checkpoint is written (`SnapshotName`,
    `JoinPath`, and `SaveModel` for common/base.py:52-55);
  - how `load_model` finds the newest snapshot by globbing `*.pth.tar` (`Glob`) and reading
    the number between `snapshot_` and `.pth.tar` with `int` (`EpochOfPath` for
    common/base.py:61, `Epochs`, `Collect`, `Max`, `LatestEpoch`);
  - the epoch a continued run starts at (`LoadLatest`, and `Resumption.StartEpoch`);
  - the tester's lookup of one specific snapshot (`TesterLoad`).
- **Learning rate** (`set_lr`, `get_lr`, `get_optimizer`):
  - the step decay over `cfg.lr_dec_epoch` (`LrSchedule.LrExponent`, and
    `LrSchedule.Rate` for common/base.py:81-84);
  - the rate written into every parameter group and read back from the last one
    (`Optimizer.SetLr`, `Optimizer.WriteLr`, `Optimizer.GetLr`);
  - the filter of trainable parameters (`Optimizer.Trainable`, `Optimizer.GetOptimizer`).
- **Batching** (`_make_batch_generator`): `itr_per_epoch` and the batch sizes the loader
  yields (`Batching.ItrPerEpoch`, `Batching.BatchSizes`).
- **GPU ids** (`parse_args` in `main/train.py` and, identically, in `demo/demo.py`): the
  expansion of a range `"a-b"` into `"a,a+1,...,b"` (`GpuIds.ExpandGpuIds`, with `int` as
  `Ints.ParseInt` and `str` as `Ints.ShowInt`).
- **Loss bookkeeping** of one epoch (`main/train.py`): `tr_loss`, the per-key `losses`
  dictionary, `global_step`, and the reported averages (`Losses.Step`, `Losses.Aggregate`,
  `Losses.Averages`).
- **The epoch loop** of `main()`, modelled as a trace of observable events:
  - rate set;
  - iteration logged;
  - snapshot saved;
  - averages reported.
  The trace stops where Python raises. `TrainLoop.Bookkeeping` is the inner loop of
  main/train.py:76-121, `TrainLoop.RunEpoch` one epoch, and `TrainLoop.Train` the loop over
  epochs at main/train.py:67.
- **Resuming**: a run that completes leaves a snapshot from which a continued run starts
  at `end_epoch` and has nothing left to do (`Resumption.StartEpoch`,
  `Resumption.ApplySaves`).
- **The demo's hand box** (`demo/demo.py`): the integer corners passed to `cv2.rectangle`
  (`DemoBox.VisCorners` for demo/demo.py:93-94, with the cast as `DemoBox.Trunc`).

Every exception the code can raise on these paths is modelled as an explicit error value:
- `max([])`;
- `int` of a stray name;
- `% 0`;
- `tr_loss / 0`;
- `lr_dec_epoch[-1]` on an empty list;
- a `KeyError` from a new loss key;
- `.item()` on the integer 0 that `sum` gives for an empty loss dict;
- the missing-file assertions;
- `range` with a string step.

Modules:
- `Results` (Option/Result);
- `Text` (`str.find`, slicing, `split`, `join`, `strip`);
- `Ints` (`str`/`int` on integers, Python `%` and `//`);
- `Snapshots`, `LrSchedule`, `Optimizer`, `Batching`, `GpuIds`, `Losses`, `TrainLoop`,
  `Resumption` and `DemoBox`.

Error paths the model follows as the code has them:
- With an empty `lr_dec_epoch`, `cfg.lr_dec_epoch[-1]` raises `IndexError`
  (common/base.py:78). `LrExponent` returns `None` and the epoch loop stops with
  `NoThresholds`.
- A model directory without any `*.pth.tar` file makes `load_model` call `max` on an empty
  list, which raises `ValueError` (`NoSnapshots`).
- A `*.pth.tar` file whose name does not hold an integer makes `load_model` raise in
  `int`, wherever the file is listed (`UnparsableName`, `StrayFileFails`).
- A missing file is reported by `torch.load` or by an assertion. Both are modelled as
  `MissingFile`.
- `int` skips the ASCII space, `\t` to `\r` and non-ASCII Unicode whitespace around the
  digits. It does not skip the ASCII separators `\x1c` to `\x1f`, although `str.isspace`
  accepts them (`IntSkipsOnlyItsSpace`).

## Model

| member | source | states |
|---|---|---|
| Text.FindSpec | common/base.py:61 | `str.find` returns -1 exactly when the text does not occur, and otherwise an index where it occurs |
| Text.FindIsFirst | common/base.py:61 | no occurrence lies before the index `str.find` returns |
| Text.Slice | common/base.py:61 | a Python slice `s[a:b]`: each bound is normalised by `ClampIndex` and the result is the text between them, or empty when they cross |
| Text.ClampIndex | common/base.py:61 | a negative bound counts from the end, and a bound outside the text is moved to its nearer end |
| Text.StripSpec | common/base.py:61 | the trimming `int` applies removes exactly the leading and trailing whitespace: the result is a contiguous part of the input with only whitespace around it and none at its own ends |
| Text.StripKeeps | common/base.py:61 | text with no whitespace at either end is left unchanged |
| Text.SplitJoin | main/train.py:26-29 | splitting a join at a separator that occurs in no part gives the parts back |
| Text.JoinSplit | main/train.py:29 | joining the pieces of a split with the same separator gives the text back |
| Text.Split | main/train.py:26-29 | `split` gives at least one piece, no piece holds the separator, one piece exactly when the separator does not occur |
| Ints.ParseShowInt | common/base.py:53-61 | `int(str(n)) == n` for every integer, including negative ones, within CPython's 4300-digit conversion limit, which the model does not have (see "## Left out") |
| Ints.ShowIntInjective | common/base.py:53 | distinct numbers give distinct decimal texts, so distinct snapshot names |
| Ints.ShowInt | common/base.py:53 | `str(n)` is non-empty and made of digits, with a leading minus only |
| Ints.ParseIntNoMinus | main/train.py:27 | a text without a minus sign can only parse to a non-negative number |
| Ints.ShowNonNegative | main/train.py:29 | the decimal text of a non-negative number has no minus sign |
| Ints.PyMod | main/train.py:120 | Python's `%` takes the sign of the divisor: in `[0, b)` for `b > 0` and in `(b, 0]` for `b < 0` |
| Ints.PyDivMod | main/train.py:127 | `a == b * (a // b) + a % b` for every non-zero divisor, with floor division |
| Ints.IntSkipsOnlyItsSpace | common/base.py:61 | `int` skips a non-ASCII space (`\xa0`) around the digits but fails on the ASCII separator `\x1c` |
| LrSchedule.FirstAbove | common/base.py:75-77 | the loop stops at the first threshold above the epoch; all before it are at most the epoch |
| LrSchedule.IndexOfValue | common/base.py:79 | `list.index` returns the first position holding the value |
| LrSchedule.LrExponent | common/base.py:74-84 | no exponent (IndexError) exactly for an empty list; otherwise within `[0, len]`, equal to `len` exactly when the last threshold is at most the epoch, and below `len` only at a threshold above the epoch with every earlier one passed |
| LrSchedule.AscendingExponentCounts | common/base.py:74-84 | for ascending thresholds the exponent is the number of thresholds at most the epoch |
| LrSchedule.ExponentMonotone | common/base.py:74-84 | for ascending thresholds the exponent never decreases as the epoch grows |
| LrSchedule.UnsortedThresholds | common/base.py:75-84 | with thresholds `[10, 5]`, epoch 7 gets exponent 2 and epoch 3 gets 0 |
| LrSchedule.RateNonIncreasing | common/base.py:81-84 | with a decay factor in `[0, 1]` a larger exponent never gives a larger rate |
| Optimizer.Trainable | common/base.py:48 | a parameter is passed exactly when it is in the model and requires a gradient |
| Optimizer.TrainableAppend | common/base.py:48 | the filter keeps the original order |
| Optimizer.AllTrainable | common/base.py:48 | when every parameter requires a gradient all are passed, in order |
| Optimizer.TrainableIdempotent | common/base.py:48 | filtering twice is filtering once |
| Optimizer.GetOptimizer | common/base.py:47-50 | one parameter group at the base rate holding exactly the trainable parameters |
| Optimizer.WriteLr | common/base.py:80-84 | every group gets the rate and keeps its parameters |
| Optimizer.WriteLrIdempotent | common/base.py:80-84 | writing the same rate twice is writing it once |
| Optimizer.SetLr | common/base.py:74-84 | fails exactly for empty thresholds; otherwise every group holds the scheduled rate and its own parameters |
| Optimizer.LastLr | common/base.py:87-88 | the loop leaves the rate of the last group |
| Optimizer.GetLr | common/base.py:86-89 | fails (UnboundLocalError) exactly without groups; otherwise the last group's rate |
| Optimizer.GetAfterSet | common/base.py:74-89 | after `set_lr`, `get_lr` returns the scheduled rate |
| Optimizer.FreshOptimizerRate | common/base.py:47-50 | a fresh optimizer reports the base rate |
| Batching.ItrPerEpoch | common/base.py:96 | `itr * g * b >= N` and `(itr - 1) * g * b < N`; a zero divisor fails |
| Batching.CeilDiv | common/base.py:96 | `ceil(n / d)` computed as `(n + d - 1) // d` is the least multiple count covering `n` |
| Batching.BatchSizes | common/base.py:97-103 | every batch holds between 1 and `g * b` samples and all but the last are full |
| Batching.BatchesCoverAll | common/base.py:97-103 | the batch sizes add up to the number of samples |
| Batching.BatchCountIsItrPerEpoch | common/base.py:96-99 | the loader yields exactly `itr_per_epoch` batches |
| Batching.HundredSamples | common/base.py:96 | 100 samples on 2 GPUs with 8 per GPU take 7 iterations |
| GpuIds.RangeStrs | main/train.py:29 | `[str(x) for x in range(lo, hi)]`: `hi - lo` texts, the i-th being `str(lo + i)` |
| GpuIds.ExpandGpuIds | main/train.py:22-29 | a missing or empty argument aborts; one without a dash is returned unchanged; a result never holds a dash |
| GpuIds.ExpandRange | demo/demo.py:30-34 | `"a-b"` becomes the comma-joined decimal numbers `a .. b` |
| GpuIds.SplitRangeArg | main/train.py:26-27 | `"a-b"` splits at the dash into the texts of `a` and `b` |
| GpuIds.ReversedRangeIsEmpty | main/train.py:29 | `"a-b"` with `b < a` expands to the empty string |
| GpuIds.ExpandedIdsParse | main/train.py:29 | the expansion of `"a-b"` splits back into `b - a + 1` ids that parse to `a, ..., b` |
| GpuIds.ExpandIdempotent | demo/demo.py:30 | expanding an expanded list changes nothing |
| GpuIds.TwoDashes | main/train.py:26-29 | `"a-b-c"` fails in `range` with a string step |
| GpuIds.EmptySide | main/train.py:27 | `"-b"` fails in `int("")` |
| Snapshots.JoinPath | common/base.py:53 | `os.path.join` puts the directory first and the file name last, inserting one `/` exactly when the directory is non-empty and does not already end in one |
| Snapshots.Write | common/base.py:54 | the written name holds the new record and every other name keeps its own |
| Snapshots.SaveKeepsOtherEpochs | common/base.py:52-54 | saving snapshot `n` leaves the snapshot of every other number unchanged |
| Snapshots.NamesDistinct | common/base.py:53 | distinct numbers give distinct snapshot names |
| Snapshots.SavedPathParses | common/base.py:53-61 | for a clean directory the number read back from the saved path is the number saved |
| Snapshots.GlobbedNameParses | common/base.py:58-61 | the same holds for the path as `glob` spells it |
| Snapshots.TrimSlashes | common/base.py:58 | the result is the input without its trailing run of slashes: a prefix that does not end in a slash, followed in the input by slashes only |
| Snapshots.GlobSpec | common/base.py:58 | `glob` lists the joined path of every file whose name matches `*.pth.tar`, and no other path |
| Snapshots.GlobOfWrite | common/base.py:54-58 | after a write, `glob` lists the old matches plus the written file |
| Snapshots.Epochs | common/base.py:59-63 | one parsed number, or none, per globbed path |
| Snapshots.Collect | common/base.py:59-63 | the list comprehension succeeds exactly when every name parses, and otherwise points at a name that does not |
| Snapshots.Max | common/base.py:59 | `max` returns an element at least as large as every element |
| Snapshots.LatestEpoch | common/base.py:58-64 | no snapshots exactly when `glob` finds nothing; otherwise the largest number read, or the stray path that does not parse |
| Snapshots.LoadLatest | common/base.py:57-72 | the start epoch is the stored `epoch` plus one |
| Snapshots.StoredSpec | common/base.py:65-66 | a lookup finds a record exactly when a file of the name exists, and then the record of the first such file |
| Snapshots.LoadLatestSpec | common/base.py:57-67 | loading succeeds exactly when every `*.pth.tar` path holds a number, some path does, and the file of the largest number exists; it restores that file's record |
| Snapshots.LoadLatestErrors | common/base.py:58-66 | the `max([])` error exactly when `glob` finds nothing; any path without a number makes loading fail in `int`; a missing file is the file of the largest number |
| Snapshots.UnparsableFails | common/base.py:59-61 | one listed path without a number makes loading fail in `int` |
| Snapshots.LatestOfBounded | common/base.py:58-64 | when all names parse to at most `n` and `n` is among them, `n` is chosen |
| Snapshots.ResumeOfBounded | common/base.py:57-67 | then the run resumes after the record stored in snapshot `n` |
| Snapshots.SaveThenLoad | common/base.py:52-67 | saving the highest number and loading resumes right after the saved record |
| Snapshots.SavedStaysBounded | common/base.py:52-63 | saving `n` into a directory bounded by `n` keeps it bounded and makes `n` present |
| Snapshots.SavedBelowStaysBounded | common/base.py:52-63 | saving any number up to the bound keeps the directory bounded |
| Snapshots.LatestIsNumericMax | common/base.py:58-64 | for snapshot files only, the numerically largest number is chosen |
| Snapshots.GlobOfSnapshots | common/base.py:58 | `glob` lists one path per snapshot file, in listing order, each the joined snapshot name |
| Snapshots.SnapshotsBounded | common/base.py:58-63 | a directory of snapshot files only is bounded by its largest number, which is read back from one of its paths |
| Snapshots.BoundedUnion | common/base.py:59-63 | paths from a bounded listing plus one bounded path stay bounded |
| Snapshots.NumericNotLexicographic | common/base.py:59-64 | snapshots 5, 12 and 7 resume from 12 |
| Snapshots.EmptyDirectoryFails | common/base.py:58-64 | a directory without a `*.pth.tar` file fails with the `max([])` error |
| Snapshots.StrayFileFails | common/base.py:58-63 | a `snapshot_demo.pth.tar` anywhere in the listing makes loading fail in `int` |
| Snapshots.StrayName | common/base.py:59-61 | the number read from `snapshot_demo.pth.tar` under a clean directory does not parse |
| Snapshots.DemoIsNotANumber | common/base.py:61 | `int("demo")` fails |
| Snapshots.TesterLoad | common/base.py:133-152 | a non-integer test epoch fails in `int`; otherwise loading succeeds exactly when a file of that snapshot number exists, returning the first such file's record, and otherwise fails the existence check on that path |
| Snapshots.TesterFindsSaved | common/base.py:150-152 | after `save_model(n)` the tester given `str(n)` loads that record |
| Losses.Keys | main/train.py:93 | the keys of a dict, one per entry, in order |
| Losses.AddValue | main/train.py:96 | `losses[k] += v` keeps the keys |
| Losses.AddValueSpec | main/train.py:96 | it changes the value of `k` by `v` and no other value |
| Losses.AddInto | main/train.py:95-96 | adding a step keeps the keys |
| Losses.AddIntoSpec | main/train.py:95-96 | adding a step succeeds exactly when all its keys are already present; otherwise a KeyError names a missing key |
| Losses.AddIntoSums | main/train.py:95-96 | each key's value grows by the step's value for it |
| Losses.FirstUnknownKey | main/train.py:95-96 | the KeyError names the first missing key in the step's order |
| Losses.Step | main/train.py:86-98 | one more step, the step total added to `tr_loss`, keys from the first step |
| Losses.StepSpec | main/train.py:89-96 | an iteration is taken in exactly when its dict is non-empty and, after the first, adds no new key; an empty dict fails at `.item()` |
| Losses.StepSums | main/train.py:92-96 | every key's sum grows by the iteration's value |
| Losses.Aggregate | main/train.py:73-98 | a failure names an iteration that exists |
| Losses.AggregateSpec | main/train.py:73-98 | the epoch's iterations are taken in exactly when the keys are consistent; then `global_step` is their number, `tr_loss` the sum of totals, the keys those of the first iteration, and every key's value its sum over the iterations |
| Losses.NewKeyFails | main/train.py:92-96 | a second iteration with a key the first lacked fails at iteration 1 with that key |
| Losses.EmptyStepFails | main/train.py:89-90 | an iteration with no losses stops the epoch |
| Losses.Averages | main/train.py:137-142 | no report exactly when `global_step` is 0 (ZeroDivisionError); the report keeps the keys |
| Losses.Divide | main/train.py:141-142 | dividing keeps the keys |
| Losses.DivideSpec | main/train.py:141-142 | each value is divided by `n` |
| Losses.AveragesSpec | main/train.py:137-142 | the reported total and each reported key are their sums over the epoch divided by the number of iterations |
| Losses.ConstantSums | main/train.py:90-96 | `n` identical iterations sum to `n` copies of each value |
| Losses.ConstantAverages | main/train.py:137-142 | identical iterations report their own values back |
| Losses.ConstantAverage | main/train.py:137-142 | for identical iterations the reported total is the step total and each key its own value |
| TrainLoop.LogEvents | main/train.py:120-121 | every event of the iterations is a log line of this epoch |
| TrainLoop.Iterations | main/train.py:76-125 | every event of the iterations is a log line of this epoch |
| TrainLoop.BookkeepingAggregate | main/train.py:76-98 | with non-zero `log_steps`, the iterations keep the loss state of `Aggregate` and fail at the same iteration for the same reason |
| TrainLoop.BookkeepingPrefixOk | main/train.py:76-120 | an iteration completes only after all earlier ones did, and only with non-zero `log_steps` |
| TrainLoop.CompletedLog | main/train.py:120-121 | when all iterations complete, the log lines are those the rule selects |
| TrainLoop.IterationsLog | main/train.py:120-121 | the log lines of a completed epoch do not depend on the losses |
| TrainLoop.LogLinesSpec | main/train.py:120 | iteration `i` has a log line exactly when `i % log_steps == 0` or it is the last one |
| TrainLoop.LoggedIffRule | main/train.py:120-121 | in a completed epoch, iteration `i` is logged exactly when the rule holds |
| TrainLoop.FirstAndLastLogged | main/train.py:120 | the first and the last iteration are always logged |
| TrainLoop.ZeroLogStepsFails | main/train.py:120 | `log_steps == 0` fails at the first iteration, with a ZeroDivisionError unless its dict is empty |
| TrainLoop.RunEpoch | main/train.py:67-143 | an epoch without failure ends with its report |
| TrainLoop.EpochSucceeds | main/train.py:67-143 | an epoch completes exactly with thresholds, at least one iteration, consistent keys, and non-zero `log_steps` and `checkpoint_freq`; no thresholds stops it before any event |
| TrainLoop.EpochShape | main/train.py:67-143 | a completed epoch is: rate set, log lines, the snapshot if due, and the report of the averages |
| TrainLoop.EpochEvents | main/train.py:127-135 | a completed epoch saves snapshot `epoch + 1` holding `epoch` exactly when the checkpoint rule holds, and no other snapshot |
| TrainLoop.EpochReport | main/train.py:137-143 | the report is for `epoch + 1` and holds the summed losses divided by the number of iterations |
| TrainLoop.EmptyEpochSavesThenFails | main/train.py:127-139 | an epoch with no iterations still saves on schedule, then fails dividing by `global_step` |
| TrainLoop.EpochExtracts | main/train.py:69-135 | a completed epoch sets the rate once and saves what the rule asks |
| TrainLoop.Range | main/train.py:67 | `range(start, end)`: `end - start` epochs in increasing order, none when `start >= end` |
| TrainLoop.TrainSpec | main/train.py:67-135 | a run without failure sets the rate for exactly the epochs `start .. end - 1` in order, and saves exactly the scheduled snapshots |
| TrainLoop.ScheduleSpec | main/train.py:127-135 | snapshot `(e + 1, e)` is scheduled exactly for the run's epochs `e` on which the rule holds |
| TrainLoop.ScheduleEndsAtEnd | main/train.py:127 | the last scheduled snapshot is `end_epoch`, holding `end_epoch - 1` |
| TrainLoop.ScheduleIncreasing | main/train.py:127-134 | snapshot numbers increase strictly along the run |
| TrainLoop.NothingLeft | main/train.py:67 | a run starting at or after `end_epoch` does nothing |
| TrainLoop.NoThresholdsStops | common/base.py:78 | without thresholds the first epoch raises before any event |
| Resumption.StartEpoch | common/base.py:112-117 | a fresh run starts at epoch 0 |
| Resumption.ApplySavesKeeps | main/train.py:127-135 | a snapshot number no save writes keeps its record |
| Resumption.ApplySavesStores | main/train.py:127-135 | with distinct numbers every saved record can be read back afterwards |
| Resumption.ApplySavesBounded | main/train.py:127-135 | saves numbered at most `b` keep every snapshot of a clean directory numbered at most `b` |
| Resumption.LoadAfterSaves | common/base.py:57-67 | saves bounded by `b`, ending with `(b, b - 1)`, resume at epoch `b` with the record of epoch `b - 1` |
| Resumption.ScheduleBounded | main/train.py:127-135 | the scheduled snapshots are numbered at most `end_epoch` and end with `end_epoch` |
| Resumption.ResumeAfterSchedule | common/base.py:57-67 | writing the schedule makes a continued run start at `end_epoch` |
| Resumption.ResumeAfterRun | main/train.py:67-135 | after a completed run a continued run starts at `end_epoch` with the last epoch's record, and runs no epoch |
| Resumption.TesterAfterRun | common/base.py:150-152 | after a completed run the tester finds, for every saved number, the record of the epoch it was saved after |
| Resumption.ContinueWithoutSnapshots | common/base.py:58-64 | a continued run whose directory has no `*.pth.tar` file fails before its first epoch |
| DemoBox.Trunc | demo/demo.py:93 | the cast to integer truncates towards zero: less than one away and never further from zero |
| DemoBox.TruncIntegral | demo/demo.py:93 | a whole number is cast unchanged |
| DemoBox.IntegralBoxCorners | demo/demo.py:93-94 | for a whole-number box the corners are `(x, y)` and `(x + w, y + h)` |
| DemoBox.CornersNearBox | demo/demo.py:93-94 | for a non-negative box the corners lie at most one (top-left) or two (bottom-right) pixels before the true ones, and the drawn size is the cast width and height |
| DemoBox.DemoLiteralBox | demo/demo.py:93-94 | if `[340.8, 232.0, 20.7, 20.7]` reached the drawing step unchanged (in the demo it first passes through `process_bbox`), it would be drawn from (340, 232) to (360, 252), although `x + w` truncates to 361 |

## Left out

- Tensors, `DataParallel`, the network and its loss values. A loss dict is a list of
  `(name, real)` pairs with distinct names. The per-device `.mean()` and the backward pass
  are not modelled.
- Floating point. Rates, losses and averages are exact `real`s, and the demo box is real
  before the cast. `%g` and `%.4f` formatting is left out.
- Batching.ItrPerEpoch: `math.ceil(len / num_gpus / batch)` divides in floating point
  (common/base.py:96). The model takes the exact integer ceiling, which agrees with the
  float result for every sample count below 2^52 but is not claimed beyond it.
- `torch.save` and `torch.load` contents. A snapshot is a record of an epoch and two
  opaque blobs. Non-strict `load_state_dict` is left out because its semantics live in
  torch.
- The directory listing is a sequence of `(name, record)` entries in listing order.
  Glob's magic characters inside the directory name are not modelled. The directory path
  is assumed not to contain `snapshot_` or `.pth.tar` (`CleanDir`), since `str.find`
  would otherwise read the number from the wrong place.
- `int` accepts ASCII digits only. Non-ASCII Unicode digits are not modelled.
- Ints.ParseShowInt: CPython (3.11 and later, and the 3.7 to 3.10 security releases) makes
  `str(n)` and `int(s)` raise `ValueError` beyond 4300 decimal digits. `ShowInt` and
  `ParseInt` have no such limit, so the round trip, `LatestEpoch` on a stray name of more
  than 4300 digits and `ExpandGpuIds` on such a range are claimed only below it.
- Snapshots.SaveModel: a file name is limited to 255 bytes on common file systems, so
  `torch.save` cannot write `snapshot_<n>.pth.tar` for `n >= 10^238`. The model's save
  always succeeds.
- Hugging Face Accelerate and wandb. `accelerator.accumulate`, `prepare`, `backward`,
  `get_state_dict`, `log` and `end_training` are foreign calls. Their effect is the
  `Reported` event and the blobs passed to the save.
- The timers, `tqdm` and the text of the log line.
  - Only whether an iteration is logged is modelled.
  - The `"loss_"` prefix of the report keys is dropped.
  - `Logged` and `Reported` carry the iteration number and the values.
- `trainer.get_lr()` inside the log line (main/train.py:109) is assumed to succeed. It
  would raise only for an optimizer without parameter groups, and `get_optimizer` always
  builds exactly one group (`FreshOptimizerRate`, `GetLr`).
- `python -O`, which would remove the `assert` statements (GPU ids, the tester's
  existence check), is not modelled.
- The dataset classes chosen by `exec`/`eval`, the dataset's own length, shuffling order
  and worker processes. Only the batch sizes are modelled.
- Demo image loading, `process_bbox`, cropping, normalisation, MANO and OBJ export
  (demo/demo.py:55-91 and 95-102). The box before the cast is a parameter.
- numpy's 64-bit integer overflow in the demo box is not modelled; corners are unbounded
  integers.
- `cfg.set_args`, the logger and `cudnn` flags.
- Adam's own update rule and the error torch raises for an empty parameter list.
- TrainLoop.Train: the data of each epoch is a parameter (`stepsOf`), because the loader
  is I/O.

=== FILE: batching.dfy ===
/** How an epoch is cut into iterations (common/base.py, `_make_batch_generator`): the
    reported `itr_per_epoch` and the batches the data loader actually yields. */
module Batching {
  import opened Results

  /** `math.ceil(N / num_gpus / train_batch_size)` in exact arithmetic; `None` is the
      `ZeroDivisionError` of a zero divisor. */
  function ItrPerEpoch(n: nat, gpus: nat, batch: nat): (r: Option<nat>)
    ensures r.None? <==> gpus == 0 || batch == 0
    ensures r.Some? ==> r.value * (gpus * batch) >= n
    ensures r.Some? ==> (r.value - 1) * (gpus * batch) < n
  {
    if gpus == 0 || batch == 0 then None
    else
      var size := gpus * batch;
      CeilDiv(n, size);
      Some((n + size - 1) / size)
  }

  /** `(n + d - 1) / d` is the least `q` with `q * d >= n`. */
  lemma CeilDiv(n: nat, d: nat)
    requires d > 0
    ensures ((n + d - 1) / d) * d >= n
    ensures ((n + d - 1) / d - 1) * d < n
  {
    var q := (n + d - 1) / d;
    var m := (n + d - 1) % d;
    assert n + d - 1 == q * d + m;
    assert (q - 1) * d == q * d - d;
  }

  /** The sizes of the batches a `DataLoader` with `batch_size = size` yields for `n`
      samples (the last batch may be short; shuffling does not change the sizes). */
  function BatchSizes(n: nat, size: nat): (r: seq<nat>)
    requires size > 0
    decreases n
    ensures forall i :: 0 <= i < |r| ==> 0 < r[i] <= size
    ensures forall i :: 0 <= i < |r| - 1 ==> r[i] == size
  {
    if n == 0 then []
    else if n <= size then [n]
    else [size] + BatchSizes(n - size, size)
  }

  function Sum(xs: seq<nat>): nat {
    if |xs| == 0 then 0 else xs[0] + Sum(xs[1..])
  }

  /** Every sample is in exactly one batch. */
  lemma {:induction false} BatchesCoverAll(n: nat, size: nat)
    requires size > 0
    decreases n
    ensures Sum(BatchSizes(n, size)) == n
  {
    if n > size {
      BatchesCoverAll(n - size, size);
    }
  }

  /** The loader yields exactly `itr_per_epoch` batches of `num_gpus * train_batch_size`. */
  lemma BatchCountIsItrPerEpoch(n: nat, gpus: nat, batch: nat)
    requires gpus > 0 && batch > 0
    ensures ItrPerEpoch(n, gpus, batch) == Some(|BatchSizes(n, gpus * batch)|)
  {
    BatchCount(n, gpus * batch);
  }

  lemma {:induction false} BatchCount(n: nat, size: nat)
    requires size > 0
    decreases n
    ensures |BatchSizes(n, size)| == (n + size - 1) / size
  {
    if n > size {
      BatchCount(n - size, size);
      assert |BatchSizes(n, size)| == 1 + |BatchSizes(n - size, size)|;
      DivStep(n + size - 1, size);
    } else if n > 0 {
      DivUnique(n + size - 1, size, 1, n - 1);
    } else {
      DivUnique(size - 1, size, 0, size - 1);
    }
  }

  /** Adding the divisor adds one to the quotient. */
  lemma DivStep(a: nat, d: nat)
    requires d > 0 && a >= d
    ensures a / d == (a - d) / d + 1
  {
    var q, r := (a - d) / d, (a - d) % d;
    assert a - d == q * d + r;
    DivUnique(a, d, q + 1, r);
  }

  /** The quotient is fixed by any decomposition with a remainder in range. */
  lemma DivUnique(x: int, d: int, q: int, r: int)
    requires d > 0 && 0 <= r < d && x == q * d + r
    ensures x / d == q
  {
    var q', r' := x / d, x % d;
    assert x == q' * d + r';
    assert q * d - q' * d == (q - q') * d;
    if q' < q {
      MulAtLeast(q - q', d);
    } else if q' > q {
      MulAtLeast(q' - q, d);
    }
  }

  lemma {:induction false} MulAtLeast(a: int, d: int)
    requires a >= 1 && d > 0
    ensures a * d >= d
    decreases a
  {
    if a > 1 {
      MulAtLeast(a - 1, d);
      assert a * d == (a - 1) * d + d;
    }
  }

  /** 100 samples on 2 GPUs with 8 per GPU take 7 iterations. */
  lemma HundredSamples()
    ensures ItrPerEpoch(100, 2, 8) == Some(7)
  {
  }
}

=== FILE: demo_box.dfy ===
/** The hand box the demo draws (demo/demo.py): the `[xmin, ymin, width, height]` box is
    cast to integers and turned into the two opposite corners `cv2.rectangle` takes. */
module DemoBox {
  /** `[xmin, ymin, width, height]` in image coordinates. */
  datatype Box = Box(x: real, y: real, w: real, h: real)

  /** `bbox_vis`: the top-left corner `(x1, y1)` and the bottom-right corner `(x2, y2)`. */
  datatype Corners = Corners(x1: int, y1: int, x2: int, y2: int)

  /** The cast of a float to a numpy integer: the fraction is dropped, towards zero. */
  function Trunc(r: real): (n: int)
    ensures 0.0 <= r ==> 0 <= n && n as real <= r < n as real + 1.0
    ensures r < 0.0 ==> n <= 0 && n as real - 1.0 < r <= n as real
  {
    if 0.0 <= r then r.Floor else -((-r).Floor)
  }

  /** `np.array(bbox, int)` followed by `bbox_vis[2:] += bbox_vis[:2]`: the cast applies to
      each entry on its own, then the width and height are added to the corner. */
  function VisCorners(b: Box): Corners {
    var x, y, w, h := Trunc(b.x), Trunc(b.y), Trunc(b.w), Trunc(b.h);
    Corners(x, y, x + w, y + h)
  }

  predicate Integral(r: real) {
    r == r.Floor as real
  }

  /** The cast leaves a whole number unchanged. */
  lemma TruncIntegral(r: real)
    requires Integral(r)
    ensures Trunc(r) as real == r
  {
    if r < 0.0 {
      assert (-r).Floor == -(r.Floor);
    }
  }

  /** For a box with whole-number entries the corners are `(x, y)` and `(x + w, y + h)`
      exactly. */
  lemma IntegralBoxCorners(b: Box)
    requires Integral(b.x) && Integral(b.y) && Integral(b.w) && Integral(b.h)
    ensures var c := VisCorners(b);
      c.x1 as real == b.x && c.y1 as real == b.y &&
      c.x2 as real == b.x + b.w && c.y2 as real == b.y + b.h
  {
    TruncIntegral(b.x);
    TruncIntegral(b.y);
    TruncIntegral(b.w);
    TruncIntegral(b.h);
  }

  /** For a box in the non-negative quadrant, the drawn corners lie at most one pixel
      before the true top-left corner and at most two before the true bottom-right one;
      the drawn size is the width and height cast on their own. */
  lemma CornersNearBox(b: Box)
    requires 0.0 <= b.x && 0.0 <= b.y && 0.0 <= b.w && 0.0 <= b.h
    ensures var c := VisCorners(b);
      b.x - 1.0 < c.x1 as real <= b.x && b.y - 1.0 < c.y1 as real <= b.y &&
      b.x + b.w - 2.0 < c.x2 as real <= b.x + b.w && b.y + b.h - 2.0 < c.y2 as real <= b.y + b.h
    ensures var c := VisCorners(b);
      c.x2 - c.x1 == Trunc(b.w) && c.y2 - c.y1 == Trunc(b.h) && c.x1 <= c.x2 && c.y1 <= c.y2
  {
  }

  /** The literal box of the demo, `[340.8, 232.0, 20.7, 20.7]`, if it reached the drawing
      step unchanged: the fractions are dropped before the sum, so the far corner is
      (360, 252), not the (361, 252) of casting `x + w = 361.5`. */
  lemma DemoLiteralBox()
    ensures VisCorners(Box(340.8, 232.0, 20.7, 20.7)) == Corners(340, 232, 360, 252)
    ensures Trunc(340.8 + 20.7) == 361
  {
  }
}

=== FILE: gpu_ids.dfy ===
/** The `--gpu` argument of `parse_args`, written out identically in main/train.py and
    demo/demo.py: a range "a-b" is expanded into the list "a,a+1,...,b". */
module GpuIds {
  import opened Results
  import opened Text
  import opened Ints

  datatype GpuError =
    | MissingIds                   // `assert 0` on a missing or empty argument
    | BadNumber(text: string)      // `int` of a side of the dash raises ValueError
    | StepNotInteger(parts: nat)   // `range(*gpus)` with a string third argument, or more than three
                                   // arguments, raises TypeError

  /** `[str(x) for x in range(lo, hi)]`. */
  function RangeStrs(lo: int, hi: int): (r: seq<string>)
    decreases hi - lo
    ensures |r| == if lo < hi then hi - lo else 0
    ensures forall i :: 0 <= i < |r| ==> r[i] == ShowInt(lo + i)
  {
    if lo >= hi then [] else [ShowInt(lo)] + RangeStrs(lo + 1, hi)
  }

  /** The value of `args.gpu_ids` after `parse_args`, for the argument `arg`
      (`None` when `--gpu` is not given). */
  function ExpandGpuIds(arg: Option<string>): (r: Result<string, GpuError>)
    ensures arg.None? || arg.value == [] ==> r == Err(MissingIds)
    ensures arg.Some? && arg.value != [] && '-' !in arg.value ==> r == Ok(arg.value)
    ensures r.Ok? ==> '-' !in r.value
  {
    match arg
    case None => Err(MissingIds)
    case Some(ids) =>
      if ids == [] then Err(MissingIds)
      else if '-' !in ids then Ok(ids)
      else
        var parts := Split(ids, '-');
        match ParseInt(parts[0])
        case None => Err(BadNumber(parts[0]))
        case Some(a) =>
          match ParseInt(parts[1])
          case None => Err(BadNumber(parts[1]))
          case Some(b) =>
            if |parts| > 2 then Err(StepNotInteger(|parts|))
            else
              ParseIntNoMinus(parts[0]);
              var r := RangeStrs(a, b + 1);
              forall i | 0 <= i < |r| ensures '-' !in r[i] {
                ShowNonNegative(a + i);
              }
              JoinAvoids(r, ",", '-');
              Ok(Join(r, ","))
  }

  /** The text "a-b" for numbers written in decimal. */
  function RangeArg(a: nat, b: nat): string {
    ShowInt(a) + "-" + ShowInt(b)
  }

  lemma SplitRangeArg(a: nat, b: nat)
    ensures Split(RangeArg(a, b), '-') == [ShowInt(a), ShowInt(b)]
  {
    ShowNonNegative(a);
    ShowNonNegative(b);
    var parts := [ShowInt(a), ShowInt(b)];
    assert Join(parts, "-") == RangeArg(a, b);
    SplitJoin(parts, '-');
  }

  /** "a-b" becomes the comma-joined decimal numbers a, a+1, ..., b: b - a + 1 of them,
      none when b < a. */
  lemma ExpandRange(a: nat, b: nat)
    ensures ExpandGpuIds(Some(RangeArg(a, b))) == Ok(Join(RangeStrs(a, b + 1), ","))
  {
    var arg := RangeArg(a, b);
    assert arg[|ShowInt(a)|] == '-';
    SplitRangeArg(a, b);
    ParseShowInt(a);
    ParseShowInt(b);
  }

  /** A reversed range expands to the empty string. */
  lemma ReversedRangeIsEmpty(a: nat, b: nat)
    requires b < a
    ensures ExpandGpuIds(Some(RangeArg(a, b))) == Ok("")
  {
    ExpandRange(a, b);
  }

  /** Reading the expansion of "a-b" (see `ExpandRange`) back: splitting it at the commas
      and parsing each piece gives a, a+1, ..., b. */
  lemma ExpandedIdsParse(a: nat, b: nat)
    requires a <= b
    ensures var ids := Split(Join(RangeStrs(a, b + 1), ","), ',');
      |ids| == b - a + 1 && forall i :: 0 <= i < |ids| ==> ParseInt(ids[i]) == Some(a + i)
  {
    var r := RangeStrs(a, b + 1);
    forall i | 0 <= i < |r|
      ensures ',' !in r[i] && ParseInt(r[i]) == Some(a + i)
    {
      ParseShowInt(a + i);
    }
    SplitJoin(r, ',');
  }

  /** Expanding an already expanded list changes nothing. */
  lemma ExpandIdempotent(arg: Option<string>)
    requires ExpandGpuIds(arg).Ok? && ExpandGpuIds(arg).value != []
    ensures ExpandGpuIds(Some(ExpandGpuIds(arg).value)) == ExpandGpuIds(arg)
  {
  }

  /** More than one dash fails in `range`, after both sides have been read. */
  lemma TwoDashes(a: nat, b: nat, c: nat)
    ensures ExpandGpuIds(Some(RangeArg(a, b) + "-" + ShowInt(c))) == Err(StepNotInteger(3))
  {
    ShowNonNegative(a);
    ShowNonNegative(b);
    ShowNonNegative(c);
    var parts := [ShowInt(a), ShowInt(b), ShowInt(c)];
    var arg := RangeArg(a, b) + "-" + ShowInt(c);
    assert parts[1..] == [ShowInt(b), ShowInt(c)];
    assert Join(parts[1..], "-") == ShowInt(b) + "-" + ShowInt(c);
    assert Join(parts, "-") == arg;
    SplitJoin(parts, '-');
    assert arg[|ShowInt(a)|] == '-';
    ParseShowInt(a);
    ParseShowInt(b);
  }

  /** An empty side, as in "-3", is not a number. */
  lemma EmptySide(b: nat)
    ensures ExpandGpuIds(Some("-" + ShowInt(b))) == Err(BadNumber(""))
  {
    ShowNonNegative(b);
    var parts := ["", ShowInt(b)];
    var arg := "-" + ShowInt(b);
    assert Join(parts, "-") == arg;
    SplitJoin(parts, '-');
    assert arg[0] == '-';
  }
}

=== FILE: ints.dfy ===
/** Python's conversions between integers and decimal text (`str(n)`, `"%d" % n`,
    `int(s)`) and its `%` operator, which rounds the quotient toward minus infinity. */
module Ints {
  import opened Results
  import opened Text

  predicate IsDigit(c: char) {
    '0' <= c <= '9'
  }

  function DigitValue(c: char): (d: nat)
    requires IsDigit(c)
    ensures d < 10
  {
    c as int - '0' as int
  }

  function DigitChar(d: nat): (c: char)
    requires d < 10
    ensures IsDigit(c) && DigitValue(c) == d
  {
    (d + '0' as int) as char
  }

  /** The decimal digits of `n`, most significant first, without leading zeros. */
  function ShowNat(n: nat): (s: string)
    ensures |s| >= 1
    ensures forall i :: 0 <= i < |s| ==> IsDigit(s[i])
  {
    if n < 10 then [DigitChar(n)] else ShowNat(n / 10) + [DigitChar(n % 10)]
  }

  /** Python's `str(n)` (and `"%d" % n`) for an integer. */
  function ShowInt(n: int): (s: string)
    ensures |s| >= 1
    ensures forall i :: 0 <= i < |s| ==> IsDigit(s[i]) || (i == 0 && s[i] == '-')
  {
    if n < 0 then "-" + ShowNat(-n) else ShowNat(n)
  }

  /** The digits part of a Python integer literal: decimal digits, with single
      underscores allowed between two digits. `None` when the text is not of that form. */
  function ParseDigits(s: string): (r: Option<nat>)
    ensures r.Some? ==> s != [] && IsDigit(s[0]) && IsDigit(s[|s| - 1])
  {
    if |s| == 0 || !IsDigit(s[|s| - 1]) then None
    else
      var d := DigitValue(s[|s| - 1]);
      var init := s[..|s| - 1];
      if init == [] then Some(d)
      else
        var body := if init[|init| - 1] == '_' then init[..|init| - 1] else init;
        match ParseDigits(body)
        case None => None
        case Some(v) => Some(v * 10 + d)
  }

  /** Python's `int(s)` on a string: surrounding whitespace (`IsSpace`) is ignored, one
      optional sign, then the digits. `None` is the `ValueError` Python raises otherwise. */
  function ParseInt(s: string): Option<int>
  {
    var t := Strip(s);
    if |t| > 0 && (t[0] == '+' || t[0] == '-') then
      match ParseDigits(t[1..])
      case None => None
      case Some(v) =>
        var n: int := v;
        Some(if t[0] == '-' then -n else n)
    else
      match ParseDigits(t)
      case None => None
      case Some(v) => Some(v)
  }

  lemma {:induction false} ParseShowNat(n: nat)
    ensures ParseDigits(ShowNat(n)) == Some(n)
  {
    if n >= 10 {
      var s := ShowNat(n);
      ParseShowNat(n / 10);
      assert s[..|s| - 1] == ShowNat(n / 10);
    }
  }

  /** `int(str(n)) == n` for every integer `n`. */
  lemma ParseShowInt(n: int)
    ensures ParseInt(ShowInt(n)) == Some(n)
  {
    if n < 0 {
      ParseShowNegative(-n);
    } else {
      ParseShowNonNegative(n);
    }
  }

  lemma ParseShowNonNegative(n: nat)
    ensures ParseInt(ShowNat(n)) == Some(n)
  {
    var s := ShowNat(n);
    NotSpace(s[0]);
    NotSpace(s[|s| - 1]);
    StripKeeps(s);
    ParseShowNat(n);
  }

  lemma ParseShowNegative(n: nat)
    requires n > 0
    ensures ParseInt("-" + ShowNat(n)) == Some(-(n as int))
  {
    var s := "-" + ShowNat(n);
    NotSpace(s[0]);
    NotSpace(s[|s| - 1]);
    StripKeeps(s);
    assert s[1..] == ShowNat(n);
    ParseShowNat(n);
  }

  lemma NotSpace(c: char)
    requires IsDigit(c) || c == '-'
    ensures !IsSpace(c)
  {
  }

  /** Non-ASCII whitespace around the digits is skipped; the ASCII file separator
      `\x1c`, whitespace to `str.isspace`, is not. */
  lemma IntSkipsOnlyItsSpace()
    ensures ParseInt("\U{a0}5 ") == Some(5)
    ensures ParseInt("\U{1c}5") == None
  {
    StripKeeps("5");
    assert StripLeft("\U{a0}5 ") == StripLeft("5 ");
    assert StripRight("5 ") == StripRight("5");
    assert StripLeft("\U{1c}5") == "\U{1c}5";
    assert StripRight("\U{1c}5") == "\U{1c}5";
  }

  /** Without a minus sign the text can only denote a non-negative number. */
  lemma ParseIntNoMinus(s: string)
    requires '-' !in s && ParseInt(s).Some?
    ensures ParseInt(s).value >= 0
  {
    var l := StripLeft(s);
    StripLeftSpec(s);
    StripRightSpec(l);
    var t := Strip(s);
    if |t| > 0 {
      assert t[0] == l[0] == s[|s| - |l|];
    }
  }

  /** `str(n)` of a non-negative number has no minus sign. */
  lemma ShowNonNegative(n: int)
    requires n >= 0
    ensures '-' !in ShowInt(n)
  {
  }

  /** `str` is injective on integers. */
  lemma ShowIntInjective(m: int, n: int)
    requires ShowInt(m) == ShowInt(n)
    ensures m == n
  {
    ParseShowInt(m);
    ParseShowInt(n);
  }

  /** Python's `a % b`: the remainder takes the sign of the divisor. `b == 0` raises
      `ZeroDivisionError`, so callers decide that case first. */
  function PyMod(a: int, b: int): (r: int)
    requires b != 0
    ensures b > 0 ==> 0 <= r < b
    ensures b < 0 ==> b < r <= 0
  {
    if b > 0 then a % b else -((-a) % (-b))
  }

  /** Python's `a // b`, rounding the quotient down. */
  function PyFloorDiv(a: int, b: int): int
    requires b != 0
  {
    if b > 0 then a / b else (-a) / (-b)
  }

  /** `%` is the remainder of `//`: `a == b * (a // b) + a % b`, the identity Python
      guarantees for every non-zero divisor. */
  lemma PyDivMod(a: int, b: int)
    requires b != 0
    ensures a == b * PyFloorDiv(a, b) + PyMod(a, b)
  {
    if b < 0 {
      var q, m := (-a) / (-b), (-a) % (-b);
      assert -a == (-b) * q + m;
      assert b * q == -((-b) * q);
    }
  }

  /** `itr % 100` in Python: 250 gives 50, -250 gives 50, and `250 % -100` gives -50. */
  lemma PyModExamples()
    ensures PyMod(250, 100) == 50 && PyMod(-250, 100) == 50 && PyMod(250, -100) == -50
  {
  }
}

=== FILE: losses.dfy ===
/** The per-epoch loss bookkeeping of the training loop (main/train.py): the running total
    `tr_loss`, the per-key sums `losses` keyed by the first iteration's keys, the step
    counter `global_step`, and the averages reported at the end of the epoch. */
module Losses {
  import opened Results

  /** One entry of the loss dictionary the model returns: a name and its mean value. */
  datatype LossTerm = LossTerm(name: string, value: real)

  predicate DistinctNames(d: seq<LossTerm>) {
    forall i, j :: 0 <= i < j < |d| ==> d[i].name != d[j].name
  }

  /** A Python dict from loss names to values, in insertion order. */
  type LossDict = d: seq<LossTerm> | DistinctNames(d) witness []

  /** The keys of a dict, in order. */
  function Keys(d: seq<LossTerm>): (ks: seq<string>)
    ensures |ks| == |d| && forall i :: 0 <= i < |d| ==> ks[i] == d[i].name
  {
    if |d| == 0 then [] else [d[0].name] + Keys(d[1..])
  }

  /** `d.get(k, 0)`. */
  function ValueOr0(d: seq<LossTerm>, k: string): real {
    if |d| == 0 then 0.0 else if d[0].name == k then d[0].value else ValueOr0(d[1..], k)
  }

  /** A missing key reads as 0. */
  lemma {:induction false} ValueOfAbsent(d: seq<LossTerm>, k: string)
    requires k !in Keys(d)
    ensures ValueOr0(d, k) == 0.0
  {
    if |d| > 0 {
      assert Keys(d) == [d[0].name] + Keys(d[1..]);
      ValueOfAbsent(d[1..], k);
    }
  }

  /** `sum(loss[k] for k in loss)`. */
  function Total(d: seq<LossTerm>): real {
    if |d| == 0 then 0.0 else d[0].value + Total(d[1..])
  }

  /** Why an iteration's losses cannot be taken in. */
  datatype LossFailure =
    | EmptyLoss                // `sum` of no values is the int 0, which has no `.item()`
    | UnknownKey(name: string) // `losses[k] += v` raises KeyError for a key the first step lacked

  /** `acc[k] += v`; a dict without `k` is left alone. */
  function AddValue(acc: seq<LossTerm>, k: string, v: real): (r: seq<LossTerm>)
    ensures Keys(r) == Keys(acc)
  {
    if |acc| == 0 then []
    else if acc[0].name == k then [LossTerm(k, acc[0].value + v)] + acc[1..]
    else [acc[0]] + AddValue(acc[1..], k, v)
  }

  /** Adding to a present key changes that key's value by `v` and no other. */
  lemma {:induction false} AddValueSpec(acc: seq<LossTerm>, k: string, v: real, k': string)
    requires k in Keys(acc)
    ensures ValueOr0(AddValue(acc, k, v), k') == ValueOr0(acc, k') + (if k' == k then v else 0.0)
  {
    if acc[0].name != k {
      assert Keys(acc) == [acc[0].name] + Keys(acc[1..]);
      AddValueSpec(acc[1..], k, v, k');
      var r := AddValue(acc, k, v);
      assert r[0] == acc[0] && r[1..] == AddValue(acc[1..], k, v);
    } else {
      var r := AddValue(acc, k, v);
      assert r[1..] == acc[1..];
    }
  }

  /** `for k, v in loss.items(): losses[k] += v`, stopping at the first unknown key. */
  function AddInto(acc: seq<LossTerm>, step: seq<LossTerm>): (r: Result<seq<LossTerm>, LossFailure>)
    decreases |step|
    ensures r.Ok? ==> Keys(r.value) == Keys(acc)
  {
    if |step| == 0 then Ok(acc)
    else if step[0].name !in Keys(acc) then Err(UnknownKey(step[0].name))
    else AddInto(AddValue(acc, step[0].name, step[0].value), step[1..])
  }

  /** Every key of `step` is a key of `first`. */
  predicate KnownKeys(step: seq<LossTerm>, first: seq<LossTerm>) {
    forall j :: 0 <= j < |step| ==> step[j].name in Keys(first)
  }

  /** Adding a step succeeds exactly when all its keys are present; otherwise it fails
      with a key of the step that is missing. */
  lemma {:induction false} AddIntoSpec(acc: seq<LossTerm>, step: seq<LossTerm>)
    ensures AddInto(acc, step).Ok? <==> KnownKeys(step, acc)
    ensures AddInto(acc, step).Err? ==>
      AddInto(acc, step).error.UnknownKey? &&
      AddInto(acc, step).error.name in Keys(step) && AddInto(acc, step).error.name !in Keys(acc)
    decreases |step|
  {
    if |step| > 0 && step[0].name in Keys(acc) {
      var acc' := AddValue(acc, step[0].name, step[0].value);
      AddIntoSpec(acc', step[1..]);
      assert Keys(step) == [step[0].name] + Keys(step[1..]);
      assert KnownKeys(step, acc) <==> KnownKeys(step[1..], acc') by {
        assert forall j :: 0 < j < |step| ==> step[j] == step[1..][j - 1];
      }
    }
  }

  /** Adding a step with distinct keys adds each key's value (0 for a missing key). */
  lemma {:induction false} AddIntoSums(acc: seq<LossTerm>, step: seq<LossTerm>, k: string)
    requires DistinctNames(step)
    requires AddInto(acc, step).Ok?
    ensures ValueOr0(AddInto(acc, step).value, k) == ValueOr0(acc, k) + ValueOr0(step, k)
    decreases |step|
  {
    if |step| > 0 {
      var n, v := step[0].name, step[0].value;
      var acc' := AddValue(acc, n, v);
      assert DistinctNames(step[1..]);
      AddIntoSums(acc', step[1..], k);
      AddValueSpec(acc, n, v, k);
      if n == k {
        assert k !in Keys(step[1..]);
        ValueOfAbsent(step[1..], k);
      }
    }
  }

  /** The loop state: `tr_loss`, `losses` and `global_step`. */
  datatype Acc = Acc(trLoss: real, losses: seq<LossTerm>, globalStep: nat)

  /** The state at the top of an epoch. */
  const Fresh := Acc(0.0, [], 0)

  /** One iteration: add the step's total to `tr_loss`, take the step's dict as `losses`
      while `losses` is still empty or add it key by key, and count the step. */
  function Step(acc: Acc, loss: LossDict): (r: Result<Acc, LossFailure>)
    ensures r.Ok? ==> r.value.globalStep == acc.globalStep + 1
    ensures r.Ok? ==> r.value.trLoss == acc.trLoss + Total(loss)
    ensures r.Ok? ==> Keys(r.value.losses) == if acc.losses == [] then Keys(loss) else Keys(acc.losses)
  {
    if |loss| == 0 then Err(EmptyLoss)
    else
      var tr := acc.trLoss + Total(loss);
      if acc.losses == [] then Ok(Acc(tr, loss, acc.globalStep + 1))
      else
        match AddInto(acc.losses, loss)
        case Err(f) => Err(f)
        case Ok(l) => Ok(Acc(tr, l, acc.globalStep + 1))
  }

  /** An iteration is taken in exactly when it is non-empty and, after the first one,
      uses only known keys. */
  lemma StepSpec(acc: Acc, loss: LossDict)
    ensures Step(acc, loss).Ok? <==> loss != [] && (acc.losses != [] ==> KnownKeys(loss, acc.losses))
    ensures Step(acc, loss) == Err(EmptyLoss) <==> loss == []
  {
    if loss != [] && acc.losses != [] {
      AddIntoSpec(acc.losses, loss);
    }
  }

  /** Taking in an iteration adds its value to every key. */
  lemma StepSums(acc: Acc, loss: LossDict, k: string)
    requires Step(acc, loss).Ok?
    ensures ValueOr0(Step(acc, loss).value.losses, k) == ValueOr0(acc.losses, k) + ValueOr0(loss, k)
  {
    if acc.losses != [] {
      AddIntoSums(acc.losses, loss, k);
    }
  }

  /** The state after the first `|steps|` iterations, or the iteration that failed. */
  function Aggregate(steps: seq<LossDict>): (r: Result<Acc, (nat, LossFailure)>)
    ensures r.Err? ==> r.error.0 < |steps|
  {
    if |steps| == 0 then Ok(Fresh)
    else
      match Aggregate(steps[..|steps| - 1])
      case Err(e) => Err(e)
      case Ok(acc) =>
        match Step(acc, steps[|steps| - 1])
        case Err(f) => Err((|steps| - 1, f))
        case Ok(a) => Ok(a)
  }

  /** The iterations of an epoch can be taken in: none is empty, and none introduces a
      key that the first one did not have. */
  predicate KeysConsistent(steps: seq<LossDict>) {
    (forall i :: 0 <= i < |steps| ==> steps[i] != []) &&
    (forall i :: 0 < i < |steps| ==> KnownKeys(steps[i], steps[0]))
  }

  /** `sum` of one key over the iterations, counting 0 where the key is missing. */
  function KeySum(steps: seq<LossDict>, k: string): real {
    if |steps| == 0 then 0.0 else KeySum(steps[..|steps| - 1], k) + ValueOr0(steps[|steps| - 1], k)
  }

  /** `sum` of every iteration's total. */
  function TotalSum(steps: seq<LossDict>): real {
    if |steps| == 0 then 0.0 else TotalSum(steps[..|steps| - 1]) + Total(steps[|steps| - 1])
  }

  /** The epoch's bookkeeping succeeds exactly for consistent keys, counts every
      iteration, sums every total, keeps the first iteration's keys and sums each key
      over all iterations. */
  lemma {:induction false} AggregateSpec(steps: seq<LossDict>)
    ensures Aggregate(steps).Ok? <==> KeysConsistent(steps)
    ensures Aggregate(steps).Ok? ==> Aggregate(steps).value.globalStep == |steps|
    ensures Aggregate(steps).Ok? ==> Aggregate(steps).value.trLoss == TotalSum(steps)
    ensures Aggregate(steps).Ok? ==> Keys(Aggregate(steps).value.losses) == if |steps| == 0 then [] else Keys(steps[0])
    ensures Aggregate(steps).Ok? ==> forall k :: ValueOr0(Aggregate(steps).value.losses, k) == KeySum(steps, k)
  {
    if |steps| > 0 {
      var init := steps[..|steps| - 1];
      AggregateSpec(init);
      PrefixConsistent(steps);
      match Aggregate(init)
      case Err(_) =>
      case Ok(acc) =>
        if |steps| > 1 {
          assert init[0] == steps[0];
        }
        LastStepOk(steps, acc);
        if Aggregate(steps).Ok? {
          LastStepValues(steps, acc);
          forall k
            ensures ValueOr0(Aggregate(steps).value.losses, k) == KeySum(steps, k)
          {
            LastStepSum(steps, acc, k);
          }
        }
    }
  }

  /** Consistency of all iterations is consistency of all but the last, plus the last one
      being non-empty and using only the first iteration's keys. */
  lemma PrefixConsistent(steps: seq<LossDict>)
    requires |steps| > 0
    ensures var init, last := steps[..|steps| - 1], steps[|steps| - 1];
      KeysConsistent(steps) <==>
        KeysConsistent(init) && last != [] &&
        (|init| > 0 ==> KnownKeys(last, steps[0]))
  {
    var init := steps[..|steps| - 1];
    if |init| > 0 {
      assert init[0] == steps[0];
    }
  }

  /** The induction step of `AggregateSpec`, success: one more iteration is taken in
      exactly when it is non-empty and uses only the first iteration's keys. */
  lemma LastStepOk(steps: seq<LossDict>, acc: Acc)
    requires |steps| > 0
    requires Aggregate(steps[..|steps| - 1]) == Ok(acc)
    requires KeysConsistent(steps[..|steps| - 1])
    requires Keys(acc.losses) == if |steps| == 1 then [] else Keys(steps[0])
    ensures Aggregate(steps).Ok? <==>
      steps[|steps| - 1] != [] &&
      (|steps| > 1 ==> KnownKeys(steps[|steps| - 1], steps[0]))
  {
    StepSpec(acc, steps[|steps| - 1]);
    if |steps| > 1 {
      assert steps[..|steps| - 1][0] == steps[0];
      assert steps[0] != [];
    }
  }

  /** The induction step of `AggregateSpec`, values: one more iteration is counted, its
      total and each of its values are added, and the keys stay those of the first. */
  lemma LastStepValues(steps: seq<LossDict>, acc: Acc)
    requires |steps| > 0
    requires Aggregate(steps[..|steps| - 1]) == Ok(acc)
    requires acc.globalStep == |steps| - 1 && acc.trLoss == TotalSum(steps[..|steps| - 1])
    requires Keys(acc.losses) == if |steps| == 1 then [] else Keys(steps[0])
    requires |steps| > 1 ==> steps[0] != []
    requires Aggregate(steps).Ok?
    ensures Aggregate(steps).value.globalStep == |steps|
    ensures Aggregate(steps).value.trLoss == TotalSum(steps)
    ensures Keys(Aggregate(steps).value.losses) == Keys(steps[0])
  {
    var last := steps[|steps| - 1];
    assert Step(acc, last).Ok? && Aggregate(steps).value == Step(acc, last).value;
    if |steps| == 1 {
      assert acc.losses == [];
      assert steps[|steps| - 1] == steps[0];
    } else {
      assert acc.losses != [];
    }
  }

  /** The induction step of `AggregateSpec`, one key: its sum grows by the last value. */
  lemma LastStepSum(steps: seq<LossDict>, acc: Acc, k: string)
    requires |steps| > 0
    requires Aggregate(steps[..|steps| - 1]) == Ok(acc)
    requires ValueOr0(acc.losses, k) == KeySum(steps[..|steps| - 1], k)
    requires Aggregate(steps).Ok?
    ensures ValueOr0(Aggregate(steps).value.losses, k) == KeySum(steps, k)
  {
    StepSums(acc, steps[|steps| - 1], k);
  }

  /** What the epoch reports: `tr_loss / global_step` and every summed loss divided by
      `global_step`; `None` is the ZeroDivisionError of an epoch without iterations. */
  function Averages(acc: Acc): (r: Option<(real, seq<LossTerm>)>)
    ensures r.None? <==> acc.globalStep == 0
    ensures r.Some? ==> Keys(r.value.1) == Keys(acc.losses)
  {
    if acc.globalStep == 0 then None
    else Some((acc.trLoss / acc.globalStep as real, Divide(acc.losses, acc.globalStep as real)))
  }

  /** Every value divided by `n`. */
  function Divide(d: seq<LossTerm>, n: real): (r: seq<LossTerm>)
    requires n > 0.0
    ensures Keys(r) == Keys(d)
  {
    if |d| == 0 then [] else [LossTerm(d[0].name, d[0].value / n)] + Divide(d[1..], n)
  }

  /** Each key's value is divided by `n`, and a missing key still reads as 0. */
  lemma {:induction false} DivideSpec(d: seq<LossTerm>, n: real, k: string)
    requires n > 0.0
    ensures ValueOr0(Divide(d, n), k) == ValueOr0(d, k) / n
  {
    if |d| > 0 {
      DivideSpec(d[1..], n, k);
    }
  }

  /** Every iteration reported the same losses `d`. */
  predicate AllSame(steps: seq<LossDict>, d: LossDict) {
    forall i :: 0 <= i < |steps| ==> steps[i] == d
  }

  /** `v + v + ... + v`, `n` times. */
  function Times(n: nat, v: real): real {
    if n == 0 then 0.0 else Times(n - 1, v) + v
  }

  /** Dividing `n` copies of `v` by `n` gives `v` back. */
  lemma TimesDivided(n: nat, v: real)
    requires n > 0
    ensures Times(n, v) / (n as real) == v
  {
    TimesIsProduct(n, v);
  }

  lemma {:induction false} TimesIsProduct(n: nat, v: real)
    ensures Times(n, v) == (n as real) * v
  {
    if n > 0 {
      TimesIsProduct(n - 1, v);
      assert ((n - 1) as real) * v + v == (n as real) * v;
    }
  }

  /** Repeating an iteration sums to that many copies of each of its values. */
  lemma {:induction false} ConstantSums(steps: seq<LossDict>, d: LossDict, k: string)
    requires AllSame(steps, d)
    ensures KeySum(steps, k) == Times(|steps|, ValueOr0(d, k))
    ensures TotalSum(steps) == Times(|steps|, Total(d))
  {
    if |steps| > 0 {
      var init := steps[..|steps| - 1];
      assert AllSame(init, d);
      ConstantSums(init, d, k);
    }
  }

  /** The reported averages are the sums over the epoch divided by the number of
      iterations: the total loss and every key. */
  lemma AveragesSpec(steps: seq<LossDict>, k: string)
    requires |steps| > 0 && KeysConsistent(steps)
    ensures Aggregate(steps).Ok?
    ensures var avg := Averages(Aggregate(steps).value);
      avg.Some? && avg.value.0 == TotalSum(steps) / (|steps| as real) &&
      ValueOr0(avg.value.1, k) == KeySum(steps, k) / (|steps| as real)
  {
    AggregateSpec(steps);
    var acc := Aggregate(steps).value;
    DivideSpec(acc.losses, |steps| as real, k);
  }

  /** When every iteration reports the same non-empty losses `d`, the epoch reports `d`
      back: the same keys, each average equal to the per-iteration value, and the total
      equal to the per-iteration total. */
  lemma ConstantAverages(steps: seq<LossDict>, d: LossDict)
    requires |steps| > 0 && d != [] && AllSame(steps, d)
    ensures Aggregate(steps).Ok?
    ensures var avg := Averages(Aggregate(steps).value);
      avg.Some? && avg.value.0 == Total(d) && Keys(avg.value.1) == Keys(d) &&
      forall k :: ValueOr0(avg.value.1, k) == ValueOr0(d, k)
  {
    assert steps[0] == d;
    assert KeysConsistent(steps);
    AggregateSpec(steps);
    forall k
      ensures ValueOr0(Averages(Aggregate(steps).value).value.1, k) == ValueOr0(d, k)
    {
      ConstantAverage(steps, d, k);
    }
    ConstantAverage(steps, d, "");
  }

  /** One key of `ConstantAverages`, and the total. */
  lemma ConstantAverage(steps: seq<LossDict>, d: LossDict, k: string)
    requires |steps| > 0 && d != [] && AllSame(steps, d)
    requires KeysConsistent(steps)
    ensures Aggregate(steps).Ok?
    ensures Averages(Aggregate(steps).value).Some?
    ensures ValueOr0(Averages(Aggregate(steps).value).value.1, k) == ValueOr0(d, k)
    ensures Averages(Aggregate(steps).value).value.0 == Total(d)
  {
    AveragesSpec(steps, k);
    ConstantSums(steps, d, k);
    TimesDivided(|steps|, ValueOr0(d, k));
    TimesDivided(|steps|, Total(d));
  }

  /** Adding a step fails on the first of its keys that is missing, in the step's order. */
  lemma {:induction false} FirstUnknownKey(acc: seq<LossTerm>, step: seq<LossTerm>, i: nat)
    requires i < |step| && step[i].name !in Keys(acc)
    requires forall j :: 0 <= j < i ==> step[j].name in Keys(acc)
    ensures AddInto(acc, step) == Err(UnknownKey(step[i].name))
    decreases |step|
  {
    if i > 0 {
      var acc' := AddValue(acc, step[0].name, step[0].value);
      assert forall j :: 0 <= j < i - 1 ==> step[1..][j] == step[j + 1];
      FirstUnknownKey(acc', step[1..], i - 1);
    }
  }

  /** A second iteration with a key the first one lacked stops the epoch with a KeyError
      for the first such key. */
  lemma NewKeyFails(first: LossDict, later: LossDict, i: nat)
    requires first != [] && i < |later| && later[i].name !in Keys(first)
    requires forall j :: 0 <= j < i ==> later[j].name in Keys(first)
    ensures Aggregate([first, later]) == Err((1, UnknownKey(later[i].name)))
  {
    var steps: seq<LossDict> := [first, later];
    assert steps[..1] == [first];
    assert [first][..0] == [];
    assert Aggregate([first]) == Ok(Acc(Total(first), first, 1));
    FirstUnknownKey(first, later, i);
  }

  /** An iteration that returns no losses stops the epoch. */
  lemma EmptyStepFails(steps: seq<LossDict>, i: nat)
    requires i < |steps| && steps[i] == []
    ensures Aggregate(steps).Err?
  {
    AggregateSpec(steps);
  }
}

=== FILE: lr_schedule.dfy ===
/** The step decay of `Trainer.set_lr` (common/base.py): which power of the decay factor
    multiplies the base learning rate at a given epoch. */
module LrSchedule {
  import opened Results

  /** Where `for e in thresholds: if epoch < e: break` stops: the index of the first
      threshold above `epoch`, or `|thresholds|` when the loop runs to the end. */
  function FirstAbove(thresholds: seq<int>, epoch: int): (j: nat)
    ensures j <= |thresholds|
    ensures forall i :: 0 <= i < j ==> thresholds[i] <= epoch
    ensures j < |thresholds| ==> epoch < thresholds[j]
  {
    if |thresholds| == 0 then 0
    else if epoch < thresholds[0] then 0
    else 1 + FirstAbove(thresholds[1..], epoch)
  }

  /** Python's `list.index(v)`: the position of the first element equal to `v`. */
  function IndexOfValue(xs: seq<int>, v: int): (i: nat)
    requires v in xs
    ensures i < |xs| && xs[i] == v
    ensures forall j :: 0 <= j < i ==> xs[j] != v
  {
    if xs[0] == v then 0 else 1 + IndexOfValue(xs[1..], v)
  }

  /** The exponent `set_lr` uses at `epoch`. The loop variable `e` keeps the threshold
      the loop stopped at (the last one if it never stopped); when `epoch` is below the
      last threshold the exponent is `thresholds.index(e)`, otherwise `len(thresholds)`.
      `None` is the `IndexError` of `thresholds[-1]` on an empty list. */
  function LrExponent(thresholds: seq<int>, epoch: int): (r: Option<nat>)
    ensures r.None? <==> |thresholds| == 0
    ensures r.Some? ==> r.value <= |thresholds|
    ensures r.Some? ==> (r.value == |thresholds| <==> thresholds[|thresholds| - 1] <= epoch)
    ensures r.Some? && r.value < |thresholds| ==> epoch < thresholds[r.value]
    ensures r.Some? && r.value < |thresholds| ==> forall i :: 0 <= i < r.value ==> thresholds[i] <= epoch
  {
    if |thresholds| == 0 then None
    else
      var j := FirstAbove(thresholds, epoch);
      var e := if j < |thresholds| then thresholds[j] else thresholds[|thresholds| - 1];
      if epoch < thresholds[|thresholds| - 1] then
        Some(IndexOfValue(thresholds, e))
      else Some(|thresholds|)
  }

  predicate Ascending(xs: seq<int>) {
    forall i, j :: 0 <= i < j < |xs| ==> xs[i] <= xs[j]
  }

  /** How many thresholds are at most `epoch`. */
  function CountAtMost(thresholds: seq<int>, epoch: int): nat {
    if |thresholds| == 0 then 0
    else (if thresholds[0] <= epoch then 1 else 0) + CountAtMost(thresholds[1..], epoch)
  }

  /** For ascending thresholds the exponent is the number of thresholds already passed. */
  lemma AscendingExponentCounts(thresholds: seq<int>, epoch: int)
    requires Ascending(thresholds) && |thresholds| > 0
    ensures LrExponent(thresholds, epoch) == Some(CountAtMost(thresholds, epoch))
  {
    CountIsFirstAbove(thresholds, epoch);
  }

  lemma {:induction false} CountIsFirstAbove(thresholds: seq<int>, epoch: int)
    requires Ascending(thresholds)
    ensures CountAtMost(thresholds, epoch) == FirstAbove(thresholds, epoch)
  {
    if |thresholds| > 0 {
      var rest := thresholds[1..];
      assert Ascending(rest);
      CountIsFirstAbove(rest, epoch);
      if epoch < thresholds[0] {
        NoneAtMost(rest, epoch, thresholds[0]);
      }
    }
  }

  /** No threshold of a list whose elements are all at least `lo > epoch` is at most `epoch`. */
  lemma {:induction false} NoneAtMost(xs: seq<int>, epoch: int, lo: int)
    requires epoch < lo
    requires forall i :: 0 <= i < |xs| ==> lo <= xs[i]
    ensures CountAtMost(xs, epoch) == 0
  {
    if |xs| > 0 {
      NoneAtMost(xs[1..], epoch, lo);
    }
  }

  /** A later epoch never has passed fewer thresholds. */
  lemma {:induction false} CountMonotone(thresholds: seq<int>, e1: int, e2: int)
    requires e1 <= e2
    ensures CountAtMost(thresholds, e1) <= CountAtMost(thresholds, e2)
  {
    if |thresholds| > 0 {
      CountMonotone(thresholds[1..], e1, e2);
    }
  }

  /** For ascending thresholds the exponent never decreases as the epochs advance. */
  lemma ExponentMonotone(thresholds: seq<int>, e1: int, e2: int)
    requires Ascending(thresholds) && |thresholds| > 0
    requires e1 <= e2
    ensures LrExponent(thresholds, e1).value <= LrExponent(thresholds, e2).value
  {
    AscendingExponentCounts(thresholds, e1);
    AscendingExponentCounts(thresholds, e2);
    CountMonotone(thresholds, e1, e2);
  }

  /** Unsorted thresholds: with [10, 5] epoch 7 stops the loop at 10, yet 7 is not below
      the last threshold 5, so the full exponent 2 applies, while epoch 3 gets 0. */
  lemma UnsortedThresholds()
    ensures LrExponent([10, 5], 7) == Some(2)
    ensures LrExponent([10, 5], 3) == Some(0)
  {
  }

  /** `x ** n` for a natural exponent. */
  function Pow(x: real, n: nat): real {
    if n == 0 then 1.0 else x * Pow(x, n - 1)
  }

  /** `lr * lr_dec_factor ** idx`, the rate `set_lr` writes, in exact arithmetic. */
  function Rate(base: real, factor: real, idx: nat): real {
    base * Pow(factor, idx)
  }

  /** With a factor in [0, 1] a larger exponent never gives a larger rate. */
  lemma RateNonIncreasing(base: real, factor: real, i: nat, j: nat)
    requires 0.0 <= base && 0.0 <= factor <= 1.0
    requires i <= j
    ensures 0.0 <= Rate(base, factor, j) <= Rate(base, factor, i)
  {
    var pi, pj := Pow(factor, i), Pow(factor, j);
    PowNonIncreasing(factor, i, j);
    assert base * pi - base * pj == base * (pi - pj);
  }

  lemma {:induction false} PowNonIncreasing(x: real, i: nat, j: nat)
    requires 0.0 <= x <= 1.0
    requires i <= j
    ensures 0.0 <= Pow(x, j) <= Pow(x, i)
    decreases j
  {
    PowNonNegative(x, j);
    if i < j {
      PowNonIncreasing(x, i, j - 1);
      var p := Pow(x, j - 1);
      MulNonNegative(1.0 - x, p);
      assert p - Pow(x, j) == (1.0 - x) * p;
    }
  }

  lemma {:induction false} PowNonNegative(x: real, n: nat)
    requires 0.0 <= x
    ensures 0.0 <= Pow(x, n)
  {
    if n > 0 {
      PowNonNegative(x, n - 1);
      MulNonNegative(x, Pow(x, n - 1));
    }
  }

  lemma MulNonNegative(a: real, b: real)
    requires 0.0 <= a && 0.0 <= b
    ensures 0.0 <= a * b
  {
  }
}

=== FILE: optimizer.dfy ===
/** The optimizer-facing parts of `Trainer` (common/base.py): which parameters
    `get_optimizer` hands to Adam, how `set_lr` rewrites the learning rate of every
    parameter group, and which group `get_lr` reads it back from. */
module Optimizer {
  import opened Results
  import opened LrSchedule

  /** A model parameter, identified by name; the tensor itself is not modelled. */
  datatype Param = Param(name: string, requiresGrad: bool)

  /** One entry of `optimizer.param_groups`: its learning rate and its parameters. */
  datatype ParamGroup = ParamGroup(lr: real, params: seq<Param>)

  /** `filter(lambda p: p.requires_grad, model.parameters())`. */
  function Trainable(ps: seq<Param>): (r: seq<Param>)
    ensures |r| <= |ps|
    ensures forall p :: p in r <==> p in ps && p.requiresGrad
  {
    if |ps| == 0 then []
    else if ps[0].requiresGrad then [ps[0]] + Trainable(ps[1..])
    else Trainable(ps[1..])
  }

  /** The filter keeps the relative order: filtering a concatenation concatenates the
      filtered parts. */
  lemma {:induction false} TrainableAppend(a: seq<Param>, b: seq<Param>)
    ensures Trainable(a + b) == Trainable(a) + Trainable(b)
  {
    if |a| == 0 {
      assert a + b == b;
    } else {
      assert (a + b)[0] == a[0];
      assert (a + b)[1..] == a[1..] + b;
      TrainableAppend(a[1..], b);
      if a[0].requiresGrad {
        assert Trainable(a + b) == [a[0]] + Trainable(a[1..] + b);
        assert [a[0]] + (Trainable(a[1..]) + Trainable(b)) == ([a[0]] + Trainable(a[1..])) + Trainable(b);
      }
    }
  }

  /** When every parameter is trainable, all of them are passed, in order. */
  lemma {:induction false} AllTrainable(ps: seq<Param>)
    requires forall i :: 0 <= i < |ps| ==> ps[i].requiresGrad
    ensures Trainable(ps) == ps
  {
    if |ps| > 0 {
      AllTrainable(ps[1..]);
    }
  }

  /** Filtering twice is filtering once. */
  lemma TrainableIdempotent(ps: seq<Param>)
    ensures Trainable(Trainable(ps)) == Trainable(ps)
  {
    var r := Trainable(ps);
    assert forall i :: 0 <= i < |r| ==> r[i] in r;
    AllTrainable(r);
  }

  /** `get_optimizer`: Adam over the trainable parameters, one group at the base rate. */
  function GetOptimizer(ps: seq<Param>, lr: real): (groups: seq<ParamGroup>)
    ensures |groups| == 1 && groups[0].lr == lr
    ensures forall p :: p in groups[0].params <==> p in ps && p.requiresGrad
  {
    [ParamGroup(lr, Trainable(ps))]
  }

  /** `for g in param_groups: g["lr"] = v`. */
  function WriteLr(groups: seq<ParamGroup>, v: real): (r: seq<ParamGroup>)
    ensures |r| == |groups|
    ensures forall i :: 0 <= i < |r| ==> r[i].lr == v && r[i].params == groups[i].params
  {
    if |groups| == 0 then [] else [groups[0].(lr := v)] + WriteLr(groups[1..], v)
  }

  /** `Trainer.set_lr(epoch)`: every group gets `lr * lr_dec_factor ** idx` for the
      exponent of the schedule; `None` where the schedule raises (no thresholds). */
  function SetLr(groups: seq<ParamGroup>, thresholds: seq<int>, epoch: int, base: real, factor: real)
    : (r: Option<seq<ParamGroup>>)
    ensures r.None? <==> |thresholds| == 0
    ensures r.Some? ==> |r.value| == |groups|
    ensures r.Some? ==> forall i :: 0 <= i < |groups| ==>
      r.value[i].params == groups[i].params &&
      r.value[i].lr == Rate(base, factor, LrExponent(thresholds, epoch).value)
  {
    match LrExponent(thresholds, epoch)
    case None => None
    case Some(idx) => Some(WriteLr(groups, Rate(base, factor, idx)))
  }

  /** The loop of `get_lr`: each group overwrites `cur_lr`, so the last one wins. */
  function LastLr(groups: seq<ParamGroup>, cur: Option<real>): (r: Option<real>)
    ensures |groups| == 0 ==> r == cur
    ensures |groups| > 0 ==> r == Some(groups[|groups| - 1].lr)
  {
    if |groups| == 0 then cur else LastLr(groups[1..], Some(groups[0].lr))
  }

  /** `Trainer.get_lr()`; `None` is the `UnboundLocalError` raised when there is no group. */
  function GetLr(groups: seq<ParamGroup>): (r: Option<real>)
    ensures r.None? <==> |groups| == 0
    ensures r.Some? ==> r.value == groups[|groups| - 1].lr
  {
    LastLr(groups, None)
  }

  /** After `set_lr`, `get_lr` reports the scheduled rate. */
  lemma GetAfterSet(groups: seq<ParamGroup>, thresholds: seq<int>, epoch: int, base: real, factor: real)
    requires |groups| > 0 && |thresholds| > 0
    ensures SetLr(groups, thresholds, epoch, base, factor).Some?
    ensures GetLr(SetLr(groups, thresholds, epoch, base, factor).value)
      == Some(Rate(base, factor, LrExponent(thresholds, epoch).value))
  {
  }

  /** Setting the rate twice is setting it once. */
  lemma WriteLrIdempotent(groups: seq<ParamGroup>, v: real)
    ensures WriteLr(WriteLr(groups, v), v) == WriteLr(groups, v)
  {
    var once := WriteLr(groups, v);
    var twice := WriteLr(once, v);
    assert forall i :: 0 <= i < |once| ==> twice[i] == once[i];
  }

  /** The optimizer `_make_model` builds reports the configured base rate until the
      first `set_lr`. */
  lemma FreshOptimizerRate(ps: seq<Param>, lr: real)
    ensures GetLr(GetOptimizer(ps, lr)) == Some(lr)
  {
  }
}

=== FILE: results.dfy ===
/** Failure-carrying values shared by every module of the model.

    A Python exception that aborts the program is modelled as an `Err` (or a `None`)
    carrying enough information to tell which `raise` or `assert` fired. */
module Results {

  /** A value that may be missing; `None` stands for the exception of the operation. */
  datatype Option<+T> = None | Some(value: T)

  /** Either a value or the error that the Python code raises instead. */
  datatype Result<+T, +E> = Ok(value: T) | Err(error: E) {

    predicate IsFailure() {
      Err?
    }

    function PropagateFailure<U>(): Result<U, E>
      requires Err?
    {
      Err(error)
    }

    function Extract(): T
      requires Ok?
    {
      value
    }
  }
}

=== FILE: resume.dfy ===
/** How a run continues a previous one (common/base.py `_make_model` with
    `cfg.continue_train`, and main/train.py): the snapshots an epoch loop leaves in the model
    directory decide the epoch the next run starts at, and which snapshot the tester finds. */
module Resumption {
  import opened Results
  import opened Ints
  import opened Losses
  import opened Snapshots
  import opened TrainLoop

  /** `Trainer._make_model`: a continued run starts after the epoch of the newest snapshot,
      a fresh one at epoch 0. */
  function StartEpoch(continueTrain: bool, dir: string, files: Listing): (r: Result<int, LoadError>)
    ensures !continueTrain ==> r == Ok(0)
  {
    if !continueTrain then Ok(0)
    else
      match LoadLatest(dir, files)
      case Err(e) => Err(e)
      case Ok(resume) => Ok(resume.startEpoch)
  }

  /** The model directory after the saves of a run, in order: save `(n, e)` writes the
      record of epoch `e`, whose weights and optimizer state are `net(e)` and `opt(e)`, to
      snapshot number `n`. */
  function ApplySaves(files: Listing, saves: seq<(int, int)>, net: int -> Blob, opt: int -> Blob): Listing
    decreases |saves|
  {
    if |saves| == 0 then files
    else
      var (n, e) := saves[0];
      ApplySaves(SaveModel(files, n, Checkpoint(e, net(e), opt(e))), saves[1..], net, opt)
  }

  /** A snapshot number none of the saves writes keeps its record. */
  lemma {:induction false} ApplySavesKeeps(files: Listing, saves: seq<(int, int)>, net: int -> Blob, opt: int -> Blob, m: int)
    requires forall i :: 0 <= i < |saves| ==> saves[i].0 != m
    ensures Stored(ApplySaves(files, saves, net, opt), SnapshotName(m)) == Stored(files, SnapshotName(m))
    decreases |saves|
  {
    if |saves| > 0 {
      var (n, e) := saves[0];
      var c := Checkpoint(e, net(e), opt(e));
      SaveKeepsOtherEpochs(files, n, c, m);
      ApplySavesKeeps(SaveModel(files, n, c), saves[1..], net, opt, m);
    }
  }

  /** With distinct snapshot numbers, every save can be read back after all of them. */
  lemma {:induction false} ApplySavesStores(files: Listing, saves: seq<(int, int)>, net: int -> Blob, opt: int -> Blob, i: nat)
    requires i < |saves|
    requires forall a, b :: 0 <= a < b < |saves| ==> saves[a].0 != saves[b].0
    ensures var (n, e) := saves[i];
      Stored(ApplySaves(files, saves, net, opt), SnapshotName(n)) == Some(Checkpoint(e, net(e), opt(e)))
    decreases |saves|
  {
    var (n, e) := saves[0];
    var c := Checkpoint(e, net(e), opt(e));
    var rest := saves[1..];
    if i == 0 {
      assert forall j :: 0 <= j < |rest| ==> rest[j].0 != n by {
        assert forall j :: 0 <= j < |rest| ==> rest[j] == saves[j + 1];
      }
      ApplySavesKeeps(SaveModel(files, n, c), rest, net, opt, n);
    } else {
      assert forall a, b :: 0 <= a < b < |rest| ==> rest[a].0 != rest[b].0 by {
        assert forall j :: 0 <= j < |rest| ==> rest[j] == saves[j + 1];
      }
      ApplySavesStores(SaveModel(files, n, c), rest, net, opt, i - 1);
    }
  }

  /** The saves up to the last one, then the last one. */
  lemma {:induction false} ApplySavesSnoc(files: Listing, saves: seq<(int, int)>, n: int, e: int, net: int -> Blob, opt: int -> Blob)
    ensures ApplySaves(files, saves + [(n, e)], net, opt) ==
      SaveModel(ApplySaves(files, saves, net, opt), n, Checkpoint(e, net(e), opt(e)))
    decreases |saves|
  {
    if |saves| > 0 {
      var (m, d) := saves[0];
      assert (saves + [(n, e)])[1..] == saves[1..] + [(n, e)];
      ApplySavesSnoc(SaveModel(files, m, Checkpoint(d, net(d), opt(d))), saves[1..], n, e, net, opt);
    }
  }

  /** Saves numbered at most `b` keep a clean directory's snapshots numbered at most `b`. */
  lemma {:induction false} ApplySavesBounded(dir: string, files: Listing, saves: seq<(int, int)>, b: int, net: int -> Blob, opt: int -> Blob)
    requires CleanDir(dir)
    requires AllParseAtMost(dir, files, b)
    requires forall i :: 0 <= i < |saves| ==> saves[i].0 <= b
    ensures AllParseAtMost(dir, ApplySaves(files, saves, net, opt), b)
    decreases |saves|
  {
    if |saves| > 0 {
      var (n, e) := saves[0];
      var c := Checkpoint(e, net(e), opt(e));
      SavedBelowStaysBounded(dir, files, n, c, b);
      assert forall i :: 0 <= i < |saves| - 1 ==> saves[1..][i] == saves[i + 1];
      ApplySavesBounded(dir, SaveModel(files, n, c), saves[1..], b, net, opt);
    }
  }

  /** Saves numbered at most `b`, the last one `(b, b - 1)`, into a clean directory whose
      snapshots are numbered at most `b`: the next run resumes at epoch `b` with the record
      of epoch `b - 1`. */
  lemma LoadAfterSaves(dir: string, files: Listing, saves: seq<(int, int)>, b: int, net: int -> Blob, opt: int -> Blob)
    requires CleanDir(dir)
    requires AllParseAtMost(dir, files, b)
    requires |saves| > 0 && saves[|saves| - 1] == (b, b - 1)
    requires forall i :: 0 <= i < |saves| ==> saves[i].0 <= b
    ensures LoadLatest(dir, ApplySaves(files, saves, net, opt)) == Ok(Resume(b, Checkpoint(b - 1, net(b - 1), opt(b - 1))))
  {
    var init := saves[..|saves| - 1];
    assert saves == init + [(b, b - 1)];
    ApplySavesSnoc(files, init, b, b - 1, net, opt);
    ApplySavesBounded(dir, files, init, b, net, opt);
    SaveThenLoad(dir, ApplySaves(files, init, net, opt), b, Checkpoint(b - 1, net(b - 1), opt(b - 1)));
  }

  /** The snapshots scheduled for `start .. end - 1`: numbered at most `end`, the last one
      snapshot `end` with the record of epoch `end - 1`. */
  lemma ScheduleBounded(cfg: TrainConfig, start: int)
    requires cfg.checkpointFreq != 0 && start < cfg.endEpoch
    ensures var saves := Schedule(cfg, start);
      |saves| > 0 && saves[|saves| - 1] == (cfg.endEpoch, cfg.endEpoch - 1) &&
      forall i :: 0 <= i < |saves| ==> saves[i].0 <= cfg.endEpoch
  {
    var saves := Schedule(cfg, start);
    ScheduleEndsAtEnd(cfg, start);
    ScheduleSpec(cfg, start, 0);
    assert forall i :: 0 <= i < |saves| ==> saves[i] in saves;
  }

  /** The snapshots scheduled for `start .. end - 1`, written into a clean directory whose
      snapshots are numbered at most `end`, make a continued run resume at `end` with the
      record of epoch `end - 1`. */
  lemma ResumeAfterSchedule(cfg: TrainConfig, start: int, dir: string, files: Listing, net: int -> Blob, opt: int -> Blob)
    requires cfg.checkpointFreq != 0 && start < cfg.endEpoch
    requires CleanDir(dir) && AllParseAtMost(dir, files, cfg.endEpoch)
    ensures var after := ApplySaves(files, Schedule(cfg, start), net, opt);
      var last := cfg.endEpoch - 1;
      LoadLatest(dir, after) == Ok(Resume(cfg.endEpoch, Checkpoint(last, net(last), opt(last)))) &&
      StartEpoch(true, dir, after) == Ok(cfg.endEpoch)
  {
    ScheduleBounded(cfg, start);
    LoadAfterSaves(dir, files, Schedule(cfg, start), cfg.endEpoch, net, opt);
  }

  /** A run over `start .. end - 1` that completes leaves a directory from which a
      continued run resumes at `end`, with the record of the last epoch, and then has
      nothing left to do. */
  lemma ResumeAfterRun(cfg: TrainConfig, start: int, stepsOf: int -> seq<LossDict>,
                       dir: string, files: Listing, net: int -> Blob, opt: int -> Blob)
    requires start < cfg.endEpoch
    requires Train(cfg, start, stepsOf).failure.None?
    requires CleanDir(dir) && AllParseAtMost(dir, files, cfg.endEpoch)
    ensures var after := ApplySaves(files, SavesOf(Train(cfg, start, stepsOf).events), net, opt);
      var last := cfg.endEpoch - 1;
      LoadLatest(dir, after) == Ok(Resume(cfg.endEpoch, Checkpoint(last, net(last), opt(last)))) &&
      StartEpoch(true, dir, after) == Ok(cfg.endEpoch)
    ensures Train(cfg, cfg.endEpoch, stepsOf) == Run([], None)
  {
    TrainSpec(cfg, start, stepsOf);
    ResumeAfterSchedule(cfg, start, dir, files, net, opt);
    NothingLeft(cfg, cfg.endEpoch, stepsOf);
  }

  /** After a run that completes, `Tester` given the number of any snapshot the run saved
      loads the record of the epoch that snapshot was saved after. */
  lemma TesterAfterRun(cfg: TrainConfig, start: int, stepsOf: int -> seq<LossDict>,
                       dir: string, files: Listing, net: int -> Blob, opt: int -> Blob, e: int)
    requires start <= e < cfg.endEpoch
    requires Train(cfg, start, stepsOf).failure.None?
    requires cfg.checkpointFreq != 0 && SaveRule(cfg, e)
    ensures var after := ApplySaves(files, SavesOf(Train(cfg, start, stepsOf).events), net, opt);
      TesterLoad(dir, after, ShowInt(e + 1)) == Ok(Checkpoint(e, net(e), opt(e)))
  {
    TrainSpec(cfg, start, stepsOf);
    var saves := Schedule(cfg, start);
    ScheduleSpec(cfg, start, e);
    ScheduleIncreasing(cfg, start);
    var i :| 0 <= i < |saves| && saves[i] == (e + 1, e);
    ApplySavesStores(files, saves, net, opt, i);
    ParseShowInt(e + 1);
  }

  /** A continued run whose directory has no `*.pth.tar` file fails before its first
      epoch. */
  lemma ContinueWithoutSnapshots(dir: string, files: Listing)
    requires forall i | 0 <= i < |files| :: !Matches(files[i].name)
    ensures StartEpoch(true, dir, files) == Err(NoSnapshots)
  {
    EmptyDirectoryFails(dir, files);
  }
}

=== FILE: snapshots.dfy ===
/** The checkpoint store of `Trainer` and `Tester` (common/base.py): how a snapshot file
    is named, how the newest one is discovered from the names in the model directory, the
    epoch training resumes at, and the existence check of the evaluation path. */
module Snapshots {
  import opened Results
  import opened Text
  import opened Ints

  /** Serialized tensors; nothing here looks inside them. */
  type Blob = seq<int>

  /** The record written by `torch.save`: `{"epoch", "network", "optimizer"}`. */
  datatype Checkpoint = Checkpoint(epoch: int, network: Blob, optimizer: Blob)

  /** One file of the model directory and the record stored in it. */
  datatype Entry = Entry(name: string, checkpoint: Checkpoint)

  /** The model directory, in the order the operating system lists it. */
  type Listing = seq<Entry>

  /** What `Trainer.load_model` returns besides the restored tensors. */
  datatype Resume = Resume(startEpoch: int, checkpoint: Checkpoint)

  datatype LoadError =
    | NoSnapshots               // `max` of an empty list raises ValueError
    | UnparsableName(path: string)  // `int` of the text between the markers raises ValueError
    | MissingFile(path: string)     // `torch.load` or the `os.path.exists` assertion fails
    | BadTestEpoch(arg: string)     // `int(test_epoch)` in `Tester.__init__` raises ValueError

  const Prefix := "snapshot_"
  const Suffix := ".pth.tar"

  /** The file name `save_model` gives to snapshot number `n`. */
  function SnapshotName(n: int): string {
    Prefix + ShowInt(n) + Suffix
  }

  /** `os.path.join(dir, name)` for a plain file name (one without a slash). */
  function JoinPath(dir: string, name: string): (path: string)
    ensures EndsWith(path, name)
    ensures |path| >= |dir| + |name| && path[..|dir|] == dir
    ensures |path| == |dir| + |name| <==> dir == [] || dir[|dir| - 1] == '/'
    ensures |path| <= |dir| + |name| + 1 && (|path| > |dir| + |name| ==> path[|dir|] == '/')
  {
    if dir == [] || dir[|dir| - 1] == '/' then dir + name else dir + "/" + name
  }

  /** The path `save_model` writes snapshot number `n` to. */
  function SnapshotPath(dir: string, n: int): string {
    JoinPath(dir, SnapshotName(n))
  }

  /** A model directory whose own path cannot be mistaken for part of a snapshot name. */
  predicate CleanDir(dir: string) {
    !Contains(dir, Prefix) && !Contains(dir, Suffix)
  }

  /** The directory holds a file called `name`. */
  predicate HasFile(files: Listing, name: string) {
    exists i | 0 <= i < |files| :: files[i].name == name
  }

  /** `files[k]` is the first file of the listing called `name`. */
  predicate FirstNamed(files: Listing, name: string, k: int) {
    0 <= k < |files| && files[k].name == name && forall j | 0 <= j < k :: files[j].name != name
  }

  /** The record stored under `name`, if the directory holds a file of that name
      (`StoredSpec`). */
  function Stored(files: Listing, name: string): Option<Checkpoint> {
    if |files| == 0 then None
    else if files[0].name == name then Some(files[0].checkpoint)
    else Stored(files[1..], name)
  }

  /** `torch.save(state, path)`: creates the file or replaces its contents. */
  function Write(files: Listing, name: string, c: Checkpoint): (r: Listing)
    ensures Stored(r, name) == Some(c)
    ensures forall other :: other != name ==> Stored(r, other) == Stored(files, other)
  {
    if |files| == 0 then [Entry(name, c)]
    else if files[0].name == name then [Entry(name, c)] + files[1..]
    else [files[0]] + Write(files[1..], name, c)
  }

  /** `Trainer.save_model(state, n)`: the directory after snapshot `n` is written. */
  function SaveModel(files: Listing, n: int, c: Checkpoint): Listing {
    Write(files, SnapshotName(n), c)
  }

  /** The names glob's `*.pth.tar` selects: the suffix matches and the file is not hidden. */
  predicate Matches(name: string) {
    EndsWith(name, Suffix) && name[0] != '.'
  }

  predicate AllSlashes(s: string) {
    forall i | 0 <= i < |s| :: s[i] == '/'
  }

  function TrimSlashes(s: string): (r: string)
    ensures |r| <= |s| && r == s[..|r|]
    ensures r == [] || r[|r| - 1] != '/'
    ensures forall i | |r| <= i < |s| :: s[i] == '/'
  {
    if |s| > 0 && s[|s| - 1] == '/' then TrimSlashes(s[..|s| - 1]) else s
  }

  /** The directory part `glob` splits off `os.path.join(dir, "*.pth.tar")`: trailing
      slashes are dropped unless the directory is nothing but slashes. */
  function GlobDir(dir: string): string {
    if AllSlashes(dir) then dir else TrimSlashes(dir)
  }

  /** `glob.glob(os.path.join(dir, "*.pth.tar"))`, in listing order: the joined path of
      every file whose name matches, and nothing else (`GlobSpec`). */
  function Glob(dir: string, files: Listing): (paths: seq<string>)
    ensures |paths| <= |files|
  {
    if |files| == 0 then []
    else
      var rest := Glob(dir, files[1..]);
      if Matches(files[0].name) then [JoinPath(GlobDir(dir), files[0].name)] + rest else rest
  }

  /** The text `load_model` reads a number from: what follows the first "snapshot_"
      (9 characters) up to the first ".pth.tar", as a Python slice. */
  function MarkedText(path: string): string {
    Slice(path, Find(path, Prefix) + 9, Find(path, Suffix))
  }

  /** The epoch number `load_model` reads out of a path, or `None` where `int` fails. */
  function EpochOfPath(path: string): Option<int> {
    ParseInt(MarkedText(path))
  }

  /** The number `load_model` reads from each path, or `None` where `int` fails. */
  function Epochs(paths: seq<string>): (r: seq<Option<int>>)
    ensures |r| == |paths|
    ensures forall i :: 0 <= i < |paths| ==> r[i] == EpochOfPath(paths[i])
  {
    if |paths| == 0 then [] else [EpochOfPath(paths[0])] + Epochs(paths[1..])
  }

  /** The list comprehension of `load_model`: all the numbers, or the position of the
      first path whose number does not parse. */
  function Collect(opts: seq<Option<int>>): (r: Result<seq<int>, nat>)
    ensures r.Ok? ==> |r.value| == |opts| && forall i :: 0 <= i < |opts| ==> opts[i] == Some(r.value[i])
    ensures r.Err? ==> r.error < |opts| && opts[r.error].None?
    ensures r.Ok? <==> forall i :: 0 <= i < |opts| ==> opts[i].Some?
  {
    if |opts| == 0 then Ok([])
    else
      match opts[0]
      case None => Err(0)
      case Some(n) =>
        match Collect(opts[1..])
        case Err(i) => Err(i + 1)
        case Ok(ns) => Ok([n] + ns)
  }

  /** Python's `max` on a non-empty list of integers. */
  function Max(xs: seq<int>): (m: int)
    requires |xs| > 0
    ensures m in xs
    ensures forall i :: 0 <= i < |xs| ==> xs[i] <= m
  {
    if |xs| == 1 then xs[0]
    else
      var m := Max(xs[1..]);
      if xs[0] >= m then xs[0] else m
  }

  /** The snapshot number `load_model` picks: the numerically largest of all names. */
  function LatestEpoch(dir: string, files: Listing): (r: Result<int, LoadError>)
    ensures r == Err(NoSnapshots) <==> Glob(dir, files) == []
    ensures r.Ok? ==> Some(r.value) in Epochs(Glob(dir, files))
    ensures r.Ok? ==> forall o | o in Epochs(Glob(dir, files)) :: o.Some? && o.value <= r.value
    ensures r.Err? ==> r.error.NoSnapshots? || r.error.UnparsableName?
    ensures r.Err? && r.error.UnparsableName? ==> r.error.path in Glob(dir, files) && EpochOfPath(r.error.path).None?
  {
    var paths := Glob(dir, files);
    var opts := Epochs(paths);
    match Collect(opts)
    case Err(i) => Err(UnparsableName(paths[i]))
    case Ok(nums) =>
      if |nums| == 0 then Err(NoSnapshots)
      else
        var m := Max(nums);
        Ok(m)
  }

  /** `Trainer.load_model`: reload the newest snapshot and resume after its epoch. */
  function LoadLatest(dir: string, files: Listing): (r: Result<Resume, LoadError>)
    ensures r.Ok? ==> r.value.startEpoch == r.value.checkpoint.epoch + 1
  {
    match LatestEpoch(dir, files)
    case Err(e) => Err(e)
    case Ok(n) =>
      var name := SnapshotName(n);
      match Stored(files, name)
      case None => Err(MissingFile(JoinPath(dir, name)))
      case Some(c) => Ok(Resume(c.epoch + 1, c))
  }

  /** `Tester(test_epoch)` followed by `_make_model`: the epoch argument is read by `int`
      and the snapshot of exactly that number must exist. */
  function TesterLoad(dir: string, files: Listing, arg: string): (r: Result<Checkpoint, LoadError>)
    ensures ParseInt(arg).None? ==> r == Err(BadTestEpoch(arg))
    ensures ParseInt(arg).Some? ==>
      (r.Ok? <==> HasFile(files, SnapshotName(ParseInt(arg).value)))
    ensures r.Ok? ==>
      exists k :: FirstNamed(files, SnapshotName(ParseInt(arg).value), k) && files[k].checkpoint == r.value
    ensures ParseInt(arg).Some? && r.Err? ==> r == Err(MissingFile(JoinPath(dir, SnapshotName(ParseInt(arg).value))))
  {
    match ParseInt(arg)
    case None => Err(BadTestEpoch(arg))
    case Some(e) =>
      var name := SnapshotName(e);
      StoredSpec(files, name);
      match Stored(files, name)
      case None => Err(MissingFile(JoinPath(dir, name)))
      case Some(c) => Ok(c)
  }

  // ----- Properties -------------------------------------------------------------------

  /** `glob` lists the joined path of every file whose name matches `*.pth.tar`, and
      no other path. */
  lemma GlobSpec(dir: string, files: Listing)
    ensures forall p :: p in Glob(dir, files) <==>
      exists i | 0 <= i < |files| :: Matches(files[i].name) && p == JoinPath(GlobDir(dir), files[i].name)
  {
    forall i | 0 <= i < |files| && Matches(files[i].name)
      ensures JoinPath(GlobDir(dir), files[i].name) in Glob(dir, files)
    {
      GlobListsMatch(dir, files, i);
    }
    forall p | p in Glob(dir, files)
      ensures exists i | 0 <= i < |files| :: Matches(files[i].name) && p == JoinPath(GlobDir(dir), files[i].name)
    {
      var i := GlobListsOnlyMatches(dir, files, p);
    }
  }

  lemma {:induction false} GlobListsMatch(dir: string, files: Listing, i: nat)
    requires i < |files| && Matches(files[i].name)
    ensures JoinPath(GlobDir(dir), files[i].name) in Glob(dir, files)
  {
    if i > 0 {
      assert files[1..][i - 1] == files[i];
      GlobListsMatch(dir, files[1..], i - 1);
    }
  }

  lemma {:induction false} GlobListsOnlyMatches(dir: string, files: Listing, p: string) returns (i: nat)
    requires p in Glob(dir, files)
    ensures i < |files| && Matches(files[i].name) && p == JoinPath(GlobDir(dir), files[i].name)
  {
    if Matches(files[0].name) && p == JoinPath(GlobDir(dir), files[0].name) {
      i := 0;
    } else {
      var j := GlobListsOnlyMatches(dir, files[1..], p);
      i := j + 1;
    }
  }

  /** `Stored` finds the first file of the name, and nothing when there is none. */
  lemma {:induction false} StoredSpec(files: Listing, name: string)
    ensures Stored(files, name).Some? <==> HasFile(files, name)
    ensures Stored(files, name).Some? ==>
      exists k :: FirstNamed(files, name, k) && files[k].checkpoint == Stored(files, name).value
  {
    if |files| > 0 && files[0].name != name {
      StoredSpec(files[1..], name);
      if HasFile(files, name) {
        var i :| 0 <= i < |files| && files[i].name == name;
        assert files[1..][i - 1].name == name;
      }
      if Stored(files, name).Some? {
        var k :| FirstNamed(files[1..], name, k) && files[1..][k].checkpoint == Stored(files, name).value;
        assert FirstNamed(files, name, k + 1);
      }
    } else if |files| > 0 {
      assert FirstNamed(files, name, 0);
    }
  }

  /** The directory text `os.path.join` puts in front of a file name. */
  function DirPrefix(dir: string): (p: string)
    ensures p == [] || p[|p| - 1] == '/'
    ensures forall name :: JoinPath(dir, name) == p + name
  {
    if dir == [] || dir[|dir| - 1] == '/' then dir else dir + "/"
  }

  /** Appending a slash to a clean directory keeps it clean. */
  lemma CleanDirPrefix(dir: string)
    requires CleanDir(dir)
    ensures CleanDir(DirPrefix(dir))
  {
    var p := DirPrefix(dir);
    if p != dir {
      assert p[..|dir|] == dir;
      forall sub, i | sub in {Prefix, Suffix} && 0 <= i <= |p| && OccursAt(p, sub, i)
        ensures false
      {
        if i + |sub| <= |dir| {
          assert dir[i..i + |sub|] == p[i..i + |sub|];
          assert OccursAt(dir, sub, i);
        }
      }
    }
  }

  /** A prefix of a clean directory is clean. */
  lemma CleanPrefix(dir: string, k: nat)
    requires CleanDir(dir) && k <= |dir|
    ensures CleanDir(dir[..k])
  {
    assert dir == dir[..k] + dir[k..];
    if Contains(dir[..k], Prefix) {
      ContainsExtend(dir[..k], dir[k..], Prefix);
    }
    if Contains(dir[..k], Suffix) {
      ContainsExtend(dir[..k], dir[k..], Suffix);
    }
  }

  /** The directory `glob` reports is clean when the configured one is. */
  lemma CleanGlobDir(dir: string)
    requires CleanDir(dir)
    ensures CleanDir(GlobDir(dir))
  {
    if !AllSlashes(dir) {
      CleanPrefix(dir, |TrimSlashes(dir)|);
    }
  }

  /** Inside a name built by `save_model` from the text `t`, the markers are found
      around `t` as long as `t` holds no dot. */
  lemma MarkersInName(t: string)
    requires '.' !in t
    ensures Find(Prefix + t + Suffix, Prefix) == 0
    ensures Find(Prefix + t + Suffix, Suffix) == 9 + |t|
  {
    var name := Prefix + t + Suffix;
    var k := 9 + |t|;
    assert name[..9] == Prefix;
    FindIsFirst(name, Prefix, 0);
    assert name[k..k + 8] == Suffix;
    forall i | 0 <= i < k
      ensures !OccursAt(name, Suffix, i)
    {
      if i >= 9 {
        assert name[i] == t[i - 9];
      } else {
        assert name[i] == Prefix[i];
      }
      assert name[i] != '.';
      if i + 8 <= |name| {
        assert name[i..i + 8][0] == name[i];
      }
    }
    FindIsFirst(name, Suffix, k);
  }

  /** In `p + "snapshot_" + t + ".pth.tar"` with a clean directory part `p` and no dot in
      `t`, the markers are found around `t`, so `load_model` reads `t`. */
  lemma MarkedTextOfName(p: string, t: string)
    requires CleanDir(p)
    requires p == [] || p[|p| - 1] == '/'
    requires '.' !in t
    ensures MarkedText(p + (Prefix + t + Suffix)) == t
  {
    MarkersInPath(p, t);
    SliceBetweenMarkers(p, t);
  }

  lemma MarkersInPath(p: string, t: string)
    requires CleanDir(p)
    requires p == [] || p[|p| - 1] == '/'
    requires '.' !in t
    ensures Find(p + (Prefix + t + Suffix), Prefix) == |p|
    ensures Find(p + (Prefix + t + Suffix), Suffix) == |p| + 9 + |t|
  {
    var name := Prefix + t + Suffix;
    MarkersInName(t);
    assert '/' !in Prefix && '/' !in Suffix;
    FindSpec(name, Prefix);
    FindAfterPrefix(p, name, Prefix);
    FindSpec(name, Suffix);
    FindAfterPrefix(p, name, Suffix);
  }

  lemma SliceBetweenMarkers(p: string, t: string)
    ensures Slice(p + (Prefix + t + Suffix), |p| + 9, |p| + 9 + |t|) == t
  {
    assert (p + (Prefix + t + Suffix))[|p| + 9..|p| + 9 + |t|] == t;
  }

  /** `load_model` reads back the number `save_model` wrote into a path, provided the
      directory itself contains neither "snapshot_" nor ".pth.tar". */
  lemma SavedPathParses(dir: string, n: int)
    requires CleanDir(dir)
    ensures EpochOfPath(SnapshotPath(dir, n)) == Some(n)
  {
    CleanDirPrefix(dir);
    MarkedTextOfName(DirPrefix(dir), ShowInt(n));
    ParseShowInt(n);
  }

  /** The same holds of the path `glob` reports for the file. */
  lemma GlobbedNameParses(dir: string, n: int)
    requires CleanDir(dir)
    ensures EpochOfPath(JoinPath(GlobDir(dir), SnapshotName(n))) == Some(n)
  {
    CleanGlobDir(dir);
    SavedPathParses(GlobDir(dir), n);
  }

  /** Snapshots of different epochs have different names. */
  lemma NamesDistinct(m: int, n: int)
    requires m != n
    ensures SnapshotName(m) != SnapshotName(n)
  {
    if SnapshotName(m) == SnapshotName(n) {
      assert ShowInt(m) == SnapshotName(m)[9..|SnapshotName(m)| - 8];
      assert ShowInt(n) == SnapshotName(n)[9..|SnapshotName(n)| - 8];
      ShowIntInjective(m, n);
    }
  }

  /** So `save_model` never replaces the snapshot of another epoch. */
  lemma SaveKeepsOtherEpochs(files: Listing, n: int, c: Checkpoint, m: int)
    requires m != n
    ensures Stored(SaveModel(files, n, c), SnapshotName(m)) == Stored(files, SnapshotName(m))
  {
    NamesDistinct(m, n);
  }

  /** Every snapshot file is one glob's `*.pth.tar` selects. */
  lemma SnapshotNameMatches(n: int)
    ensures Matches(SnapshotName(n))
  {
    var name := SnapshotName(n);
    assert name[0] == 's';
    assert name[|name| - 8..] == Suffix;
  }

  /** Every `*.pth.tar` path of the directory names a snapshot numbered at most `n`. */
  predicate AllParseAtMost(dir: string, files: Listing, n: int) {
    forall o | o in Epochs(Glob(dir, files)) :: o.Some? && o.value <= n
  }

  /** Writing a `*.pth.tar` file adds its path to the glob and nothing else. */
  lemma {:induction false} GlobOfWrite(dir: string, files: Listing, name: string, c: Checkpoint)
    requires Matches(name)
    ensures forall p | p in Glob(dir, Write(files, name, c)) :: p in Glob(dir, files) || p == JoinPath(GlobDir(dir), name)
    ensures JoinPath(GlobDir(dir), name) in Glob(dir, Write(files, name, c))
  {
    if |files| > 0 && files[0].name != name {
      GlobOfWrite(dir, files[1..], name, c);
    }
  }

  /** The latest number is `n` when every name parses to at most `n` and one to `n`. */
  lemma LatestOfBounded(dir: string, files: Listing, n: int)
    requires AllParseAtMost(dir, files, n)
    requires Some(n) in Epochs(Glob(dir, files))
    ensures LatestEpoch(dir, files) == Ok(n)
  {
    BoundedMax(Epochs(Glob(dir, files)), n);
  }

  lemma BoundedMax(opts: seq<Option<int>>, n: int)
    requires forall o | o in opts :: o.Some? && o.value <= n
    requires Some(n) in opts
    ensures Collect(opts).Ok? && |Collect(opts).value| > 0 && Max(Collect(opts).value) == n
  {
    var k :| 0 <= k < |opts| && opts[k] == Some(n);
    assert forall i | 0 <= i < |opts| :: opts[i] in opts;
    var nums := Collect(opts).value;
    assert nums[k] == n;
  }

  /** Round trip: after snapshot `n` is saved into a directory holding only snapshots
      numbered at most `n`, `load_model` restores exactly that record and resumes at
      its stored epoch + 1. */
  lemma SaveThenLoad(dir: string, files: Listing, n: int, c: Checkpoint)
    requires CleanDir(dir)
    requires AllParseAtMost(dir, files, n)
    ensures LoadLatest(dir, SaveModel(files, n, c)) == Ok(Resume(c.epoch + 1, c))
  {
    SavedStaysBounded(dir, files, n, c);
    ResumeOfBounded(dir, SaveModel(files, n, c), n, c);
  }

  /** When every name parses to at most `n`, one parses to `n` and snapshot `n` holds
      `c`, resuming restores `c`. */
  lemma ResumeOfBounded(dir: string, files: Listing, n: int, c: Checkpoint)
    requires AllParseAtMost(dir, files, n)
    requires Some(n) in Epochs(Glob(dir, files))
    requires Stored(files, SnapshotName(n)) == Some(c)
    ensures LoadLatest(dir, files) == Ok(Resume(c.epoch + 1, c))
  {
    LatestOfBounded(dir, files, n);
    LoadOfLatest(dir, files, n, c);
  }

  /** Snapshot `n` is the one `load_model` resumes from: every `*.pth.tar` path holds a
      number, none above `n`, and one holds `n`. */
  predicate LatestIs(dir: string, files: Listing, n: int) {
    AllParseAtMost(dir, files, n) && Some(n) in Epochs(Glob(dir, files))
  }

  /** `load_model` succeeds exactly when every `*.pth.tar` path holds a number, there is
      one, and the file of the largest number exists; it then restores that file's
      record. */
  lemma LoadLatestSpec(dir: string, files: Listing)
    ensures LoadLatest(dir, files).Ok? <==> exists n :: LatestIs(dir, files, n) && HasFile(files, SnapshotName(n))
    ensures LoadLatest(dir, files).Ok? ==> exists n, k ::
      LatestIs(dir, files, n) && FirstNamed(files, SnapshotName(n), k) && files[k].checkpoint == LoadLatest(dir, files).value.checkpoint
  {
    match LatestEpoch(dir, files)
    case Ok(m) =>
      assert LatestIs(dir, files, m);
      StoredSpec(files, SnapshotName(m));
      forall n | LatestIs(dir, files, n)
        ensures n == m
      {
        LatestUnique(dir, files, n, m);
      }
    case Err(e) =>
      forall n | LatestIs(dir, files, n)
        ensures false
      {
        LatestOfBounded(dir, files, n);
      }
  }

  lemma LatestUnique(dir: string, files: Listing, n: int, m: int)
    requires LatestIs(dir, files, n) && LatestIs(dir, files, m)
    ensures n == m
  {
    var e := Epochs(Glob(dir, files));
    assert Some(n) in e && Some(m) in e;
  }

  /** How `load_model` fails: an empty glob is the `max([])` error, a path without a
      number fails whatever else is listed, and a missing file is the file of the largest
      number. */
  lemma LoadLatestErrors(dir: string, files: Listing)
    ensures LoadLatest(dir, files) == Err(NoSnapshots) <==> Glob(dir, files) == []
    ensures (exists i | 0 <= i < |Glob(dir, files)| :: EpochOfPath(Glob(dir, files)[i]).None?) ==>
      LoadLatest(dir, files).Err? && LoadLatest(dir, files).error.UnparsableName?
    ensures LoadLatest(dir, files).Err? && LoadLatest(dir, files).error.MissingFile? ==> exists n ::
      LatestIs(dir, files, n) && !HasFile(files, SnapshotName(n)) && LoadLatest(dir, files).error.path == JoinPath(dir, SnapshotName(n))
  {
    var g := Glob(dir, files);
    if LatestEpoch(dir, files).Ok? {
      var m := LatestEpoch(dir, files).value;
      assert LatestIs(dir, files, m);
      StoredSpec(files, SnapshotName(m));
      forall i | 0 <= i < |g|
        ensures EpochOfPath(g[i]).Some?
      {
        assert Epochs(g)[i] in Epochs(g);
      }
    }
  }

  lemma LoadOfLatest(dir: string, files: Listing, n: int, c: Checkpoint)
    requires LatestEpoch(dir, files) == Ok(n)
    requires Stored(files, SnapshotName(n)) == Some(c)
    ensures LoadLatest(dir, files) == Ok(Resume(c.epoch + 1, c))
  {
    var r := LoadLatest(dir, files);
    assert r.Ok?;
    assert r.value.checkpoint == c;
    assert r.value.startEpoch == c.epoch + 1;
  }

  /** Saving snapshot `n` keeps every name at most `n` and adds one that is `n`. */
  lemma SavedStaysBounded(dir: string, files: Listing, n: int, c: Checkpoint)
    requires CleanDir(dir)
    requires AllParseAtMost(dir, files, n)
    ensures AllParseAtMost(dir, SaveModel(files, n, c), n)
    ensures Some(n) in Epochs(Glob(dir, SaveModel(files, n, c)))
  {
    var name := SnapshotName(n);
    var files' := SaveModel(files, n, c);
    var q := JoinPath(GlobDir(dir), name);
    var g, g' := Glob(dir, files), Glob(dir, files');
    GlobOfWrite(dir, files, name, c);
    GlobbedNameParses(dir, n);
    BoundedUnion(g, g', q, n);
    var k :| 0 <= k < |g'| && g'[k] == q;
    assert Epochs(g')[k] == Some(n);
  }

  /** Saving a snapshot numbered at most `b` keeps every name at most `b`. */
  lemma SavedBelowStaysBounded(dir: string, files: Listing, m: int, c: Checkpoint, b: int)
    requires CleanDir(dir)
    requires AllParseAtMost(dir, files, b) && m <= b
    ensures AllParseAtMost(dir, SaveModel(files, m, c), b)
  {
    var name := SnapshotName(m);
    SnapshotNameMatches(m);
    GlobOfWrite(dir, files, name, c);
    GlobbedNameParses(dir, m);
    BoundedUnion(Glob(dir, files), Glob(dir, SaveModel(files, m, c)), JoinPath(GlobDir(dir), name), b);
  }

  /** Paths drawn from a bounded list and one more path of a number at most `n` stay
      bounded by `n`. */
  lemma BoundedUnion(g: seq<string>, g': seq<string>, q: string, n: int)
    requires forall o | o in Epochs(g) :: o.Some? && o.value <= n
    requires EpochOfPath(q).Some? && EpochOfPath(q).value <= n
    requires forall p | p in g' :: p in g || p == q
    ensures forall o | o in Epochs(g') :: o.Some? && o.value <= n
  {
    var e, e' := Epochs(g), Epochs(g');
    forall o | o in e'
      ensures o.Some? && o.value <= n
    {
      var i :| 0 <= i < |e'| && e'[i] == o;
      if g'[i] != q {
        assert g'[i] in g;
        var j :| 0 <= j < |g| && g[j] == g'[i];
        assert e[j] == o;
      }
    }
  }

  /** `save_model` followed by `Tester` with the same number finds the snapshot. */
  lemma TesterFindsSaved(dir: string, files: Listing, n: int, c: Checkpoint)
    ensures TesterLoad(dir, SaveModel(files, n, c), ShowInt(n)) == Ok(c)
  {
    ParseShowInt(n);
  }

  /** A directory holding snapshot `ns[i]` with record `cs[i]` for every `i`, in that order. */
  function SnapshotsOf(ns: seq<int>, cs: seq<Checkpoint>): (files: Listing)
    requires |ns| == |cs|
    ensures |files| == |ns|
    ensures forall i :: 0 <= i < |ns| ==> files[i] == Entry(SnapshotName(ns[i]), cs[i])
  {
    if |ns| == 0 then [] else [Entry(SnapshotName(ns[0]), cs[0])] + SnapshotsOf(ns[1..], cs[1..])
  }

  /** `glob` reports every snapshot of such a directory, in listing order. */
  lemma {:induction false} GlobOfSnapshots(dir: string, ns: seq<int>, cs: seq<Checkpoint>)
    requires |ns| == |cs|
    ensures |Glob(dir, SnapshotsOf(ns, cs))| == |ns|
    ensures forall i :: 0 <= i < |ns| ==> Glob(dir, SnapshotsOf(ns, cs))[i] == JoinPath(GlobDir(dir), SnapshotName(ns[i]))
  {
    if |ns| > 0 {
      var files := SnapshotsOf(ns, cs);
      SnapshotNameMatches(ns[0]);
      GlobOfSnapshots(dir, ns[1..], cs[1..]);
      assert files[1..] == SnapshotsOf(ns[1..], cs[1..]);
    }
  }

  /** The choice is numeric, not textual: in a directory holding exactly the snapshots
      numbered `ns` the latest is `max(ns)`, though e.g. "snapshot_7" sorts after
      "snapshot_12" as text. */
  lemma LatestIsNumericMax(dir: string, ns: seq<int>, cs: seq<Checkpoint>) returns (k: nat)
    requires CleanDir(dir)
    requires |ns| == |cs| && |ns| > 0
    ensures k < |ns| && ns[k] == Max(ns)
    ensures LatestEpoch(dir, SnapshotsOf(ns, cs)) == Ok(Max(ns))
  {
    k := SnapshotsBounded(dir, ns, cs);
    LatestOfBounded(dir, SnapshotsOf(ns, cs), Max(ns));
  }

  lemma SnapshotsBounded(dir: string, ns: seq<int>, cs: seq<Checkpoint>) returns (k: nat)
    requires CleanDir(dir)
    requires |ns| == |cs| && |ns| > 0
    ensures k < |ns| && ns[k] == Max(ns)
    ensures AllParseAtMost(dir, SnapshotsOf(ns, cs), Max(ns))
    ensures Some(Max(ns)) in Epochs(Glob(dir, SnapshotsOf(ns, cs)))
  {
    var g := SnapshotsParse(dir, ns, cs);
    k := MaxOfParsed(Epochs(g), ns);
  }

  /** Numbers read as `ns` are all bounded by `max(ns)`, which is one of them. */
  lemma MaxOfParsed(e: seq<Option<int>>, ns: seq<int>) returns (k: nat)
    requires |e| == |ns| > 0
    requires forall i | 0 <= i < |e| :: e[i] == Some(ns[i])
    ensures k < |ns| && ns[k] == Max(ns)
    ensures forall o | o in e :: o.Some? && o.value <= Max(ns)
    ensures Some(Max(ns)) in e
  {
    var m := Max(ns);
    forall o | o in e
      ensures o.Some? && o.value <= m
    {
      var i :| 0 <= i < |e| && e[i] == o;
      assert e[i] == Some(ns[i]);
    }
    k :| 0 <= k < |ns| && ns[k] == m;
    assert e[k] == Some(m);
  }

  lemma SnapshotsParse(dir: string, ns: seq<int>, cs: seq<Checkpoint>) returns (g: seq<string>)
    requires CleanDir(dir)
    requires |ns| == |cs|
    ensures g == Glob(dir, SnapshotsOf(ns, cs)) && |g| == |ns|
    ensures forall i | 0 <= i < |g| :: Epochs(g)[i] == Some(ns[i])
  {
    GlobOfSnapshots(dir, ns, cs);
    g := Glob(dir, SnapshotsOf(ns, cs));
    forall i | 0 <= i < |g|
      ensures EpochOfPath(g[i]) == Some(ns[i])
    {
      GlobbedNameParses(dir, ns[i]);
    }
  }

  /** Snapshots 5, 12 and 7: the numerically largest, 12, is the one resumed from, not the
      "7" that sorts last as text. */
  lemma NumericNotLexicographic(dir: string, c5: Checkpoint, c12: Checkpoint, c7: Checkpoint)
    requires CleanDir(dir)
    ensures LatestEpoch(dir, SnapshotsOf([5, 12, 7], [c5, c12, c7])) == Ok(12)
  {
    var k := LatestIsNumericMax(dir, [5, 12, 7], [c5, c12, c7]);
  }

  /** A model directory without a `*.pth.tar` file cannot be resumed from. */
  lemma EmptyDirectoryFails(dir: string, files: Listing)
    requires forall i | 0 <= i < |files| :: !Matches(files[i].name)
    ensures LoadLatest(dir, files) == Err(NoSnapshots)
  {
    GlobOfNone(dir, files);
  }

  lemma {:induction false} GlobOfNone(dir: string, files: Listing)
    requires forall i | 0 <= i < |files| :: !Matches(files[i].name)
    ensures Glob(dir, files) == []
  {
    if |files| > 0 {
      assert forall i | 0 <= i < |files| - 1 :: files[1..][i] == files[i + 1];
      GlobOfNone(dir, files[1..]);
    }
  }

  /** A `*.pth.tar` file without a number in its name, such as the demo's
      "snapshot_demo.pth.tar", makes resuming fail wherever it is listed. */
  lemma StrayFileFails(dir: string, a: Listing, b: Listing, c: Checkpoint)
    requires CleanDir(dir)
    ensures var files := a + [Entry("snapshot_demo.pth.tar", c)] + b;
      LoadLatest(dir, files).Err? && LoadLatest(dir, files).error.UnparsableName?
  {
    var files := a + [Entry("snapshot_demo.pth.tar", c)] + b;
    assert files[|a|].name == "snapshot_demo.pth.tar";
    assert "snapshot_demo.pth.tar"[13..] == Suffix;
    GlobListsMatch(dir, files, |a|);
    StrayName(dir);
    UnparsableFails(dir, files, JoinPath(GlobDir(dir), "snapshot_demo.pth.tar"));
  }

  /** One listed path without a number makes `load_model` fail. */
  lemma UnparsableFails(dir: string, files: Listing, q: string)
    requires q in Glob(dir, files) && EpochOfPath(q).None?
    ensures LoadLatest(dir, files).Err? && LoadLatest(dir, files).error.UnparsableName?
  {
    var g := Glob(dir, files);
    var i :| 0 <= i < |g| && g[i] == q;
    LoadLatestErrors(dir, files);
  }

  lemma StrayName(dir: string)
    requires CleanDir(dir)
    ensures EpochOfPath(JoinPath(GlobDir(dir), "snapshot_demo.pth.tar")).None?
  {
    CleanGlobDir(dir);
    CleanDirPrefix(GlobDir(dir));
    assert "snapshot_demo.pth.tar" == Prefix + "demo" + Suffix;
    MarkedTextOfName(DirPrefix(GlobDir(dir)), "demo");
    DemoIsNotANumber();
  }

  lemma DemoIsNotANumber()
    ensures ParseInt("demo").None?
  {
    assert !IsSpace('d') && !IsSpace('o');
    StripKeeps("demo");
  }
}

=== FILE: text.dfy ===
/** The handful of Python `str` operations the training scripts rely on:
    `find`, slicing, `split`, `join`, `strip` and suffix tests. */
module Text {

  /** `sub` occurs in `s` starting at index `i`. */
  predicate OccursAt(s: string, sub: string, i: int) {
    0 <= i && i + |sub| <= |s| && s[i..i + |sub|] == sub
  }

  /** Python's `sub in s`. */
  predicate Contains(s: string, sub: string) {
    exists i | 0 <= i <= |s| :: OccursAt(s, sub, i)
  }

  /** `str.find` started at index `from`. */
  function FindFrom(s: string, sub: string, from: nat): (r: int)
    decreases |s| - from
    ensures r == -1 || from <= r <= |s|
  {
    if from + |sub| > |s| then -1
    else if s[from..from + |sub|] == sub then from
    else FindFrom(s, sub, from + 1)
  }

  /** Python's `s.find(sub)`: the lowest index at which `sub` occurs, or -1
      (`FindSpec` states this). */
  function Find(s: string, sub: string): (r: int)
    ensures -1 <= r <= |s|
  {
    FindFrom(s, sub, 0)
  }

  /** `FindFrom` returns the first occurrence at or after `from`, or -1 when there is none. */
  lemma {:induction false} FindFromSpec(s: string, sub: string, from: nat)
    decreases |s| - from
    ensures FindFrom(s, sub, from) == -1 ==> forall i :: from <= i ==> !OccursAt(s, sub, i)
    ensures FindFrom(s, sub, from) != -1 ==> OccursAt(s, sub, FindFrom(s, sub, from))
    ensures forall i :: from <= i < FindFrom(s, sub, from) ==> !OccursAt(s, sub, i)
  {
    if from + |sub| <= |s| && s[from..from + |sub|] != sub {
      FindFromSpec(s, sub, from + 1);
    }
  }

  /** `Find` is -1 exactly when `sub` does not occur, and otherwise the first occurrence. */
  lemma FindSpec(s: string, sub: string)
    ensures Find(s, sub) == -1 <==> !Contains(s, sub)
    ensures Find(s, sub) != -1 ==> OccursAt(s, sub, Find(s, sub))
    ensures forall i :: 0 <= i < Find(s, sub) ==> !OccursAt(s, sub, i)
  {
    FindFromSpec(s, sub, 0);
    if Find(s, sub) != -1 {
      assert OccursAt(s, sub, Find(s, sub));
    }
  }

  /** An occurrence with none before it is the one `find` reports. */
  lemma {:induction false} FindFromIsFirst(s: string, sub: string, from: nat, r: nat)
    requires from <= r && OccursAt(s, sub, r)
    requires forall i :: from <= i < r ==> !OccursAt(s, sub, i)
    decreases r - from
    ensures FindFrom(s, sub, from) == r
  {
    if from < r {
      assert !OccursAt(s, sub, from);
      FindFromIsFirst(s, sub, from + 1, r);
    }
  }

  lemma FindIsFirst(s: string, sub: string, r: nat)
    requires OccursAt(s, sub, r)
    requires forall i :: 0 <= i < r ==> !OccursAt(s, sub, i)
    ensures Find(s, sub) == r
  {
    FindFromIsFirst(s, sub, 0, r);
  }

  /** The first occurrence of `sub` in `p + q` lies in `q` when `p` does not contain `sub`
      and ends in a character that `sub` does not use. */
  lemma FindAfterPrefix(p: string, q: string, sub: string)
    requires |sub| > 0 && !Contains(p, sub)
    requires p != [] ==> p[|p| - 1] !in sub
    requires Contains(q, sub)
    ensures Find(p + q, sub) == |p| + Find(q, sub)
  {
    var s := p + q;
    FindSpec(q, sub);
    var k := Find(q, sub);
    SliceRight(p, q, |p| + k, |p| + k + |sub|);
    forall i | 0 <= i < |p| + k
      ensures !OccursAt(s, sub, i)
    {
      NotBefore(p, q, sub, k, i);
    }
    FindIsFirst(s, sub, |p| + k);
  }

  /** No occurrence in `p + q` starts before `|p| + k` when `k` is the first in `q`. */
  lemma NotBefore(p: string, q: string, sub: string, k: nat, i: nat)
    requires |sub| > 0 && !Contains(p, sub)
    requires p != [] ==> p[|p| - 1] !in sub
    requires forall j :: 0 <= j < k ==> !OccursAt(q, sub, j)
    requires i < |p| + k
    ensures !OccursAt(p + q, sub, i)
  {
    var s := p + q;
    if i + |sub| <= |p| {
      SliceLeft(p, q, i, i + |sub|);
      assert !OccursAt(p, sub, i);
    } else if i < |p| {
      if i + |sub| <= |s| {
        assert s[i..i + |sub|][|p| - 1 - i] == p[|p| - 1];
      }
    } else if i + |sub| <= |s| {
      SliceRight(p, q, i, i + |sub|);
      assert !OccursAt(q, sub, i - |p|);
    }
  }

  lemma SliceLeft(p: string, q: string, a: nat, b: nat)
    requires a <= b <= |p|
    ensures (p + q)[a..b] == p[a..b]
  {
  }

  lemma SliceRight(p: string, q: string, a: nat, b: nat)
    requires |p| <= a <= b <= |p| + |q|
    ensures (p + q)[a..b] == q[a - |p|..b - |p|]
  {
  }

  /** A string that contains `sub` contains it when extended on the right. */
  lemma ContainsExtend(p: string, q: string, sub: string)
    requires Contains(p, sub)
    ensures Contains(p + q, sub)
  {
    var i :| 0 <= i <= |p| && OccursAt(p, sub, i);
    assert (p + q)[i..i + |sub|] == p[i..i + |sub|];
    assert OccursAt(p + q, sub, i);
  }

  /** Python's `s[a:b]` for integer bounds: negative bounds count from the end, bounds
      are clamped to the string, and an empty range gives "". */
  function Slice(s: string, a: int, b: int): (r: string)
    ensures |r| <= |s|
    ensures 0 <= a <= b <= |s| ==> r == s[a..b]
    ensures b <= a && 0 <= a && 0 <= b ==> r == []
    ensures ClampIndex(a, |s|) <= ClampIndex(b, |s|) ==> r == s[ClampIndex(a, |s|)..ClampIndex(b, |s|)]
    ensures ClampIndex(b, |s|) <= ClampIndex(a, |s|) ==> r == []
  {
    var lo := ClampIndex(a, |s|);
    var hi := ClampIndex(b, |s|);
    if hi <= lo then [] else s[lo..hi]
  }

  /** How a Python slice bound is normalised against a sequence of length `len`. */
  function ClampIndex(i: int, len: nat): (r: nat)
    ensures r <= len
    ensures 0 <= i <= len ==> r == i
    ensures i < 0 && 0 <= i + len ==> r == i + len
    ensures i + len < 0 ==> r == 0
    ensures len < i ==> r == len
  {
    if i < 0 then (if i + len < 0 then 0 else i + len)
    else if i > len then len
    else i
  }

  predicate StartsWith(s: string, prefix: string) {
    |prefix| <= |s| && s[..|prefix|] == prefix
  }

  predicate EndsWith(s: string, suffix: string) {
    |suffix| <= |s| && s[|s| - |suffix|..] == suffix
  }

  /** The index of the first `c` in `s`. */
  function IndexOf(s: string, c: char): (i: nat)
    requires c in s
    ensures i < |s| && s[i] == c && c !in s[..i]
  {
    if s[0] == c then 0
    else
      assert c in s[1..] by { assert s == [s[0]] + s[1..]; }
      var j := IndexOf(s[1..], c);
      assert s[..j + 1] == [s[0]] + s[1..][..j];
      1 + j
  }

  /** Python's `s.split(sep)` for a one-character separator: the pieces between
      consecutive separators, including empty ones. */
  function Split(s: string, sep: char): (parts: seq<string>)
    decreases |s|
    ensures |parts| >= 1
    ensures forall i :: 0 <= i < |parts| ==> sep !in parts[i]
    ensures sep !in s ==> parts == [s]
    ensures sep in s ==> |parts| >= 2
  {
    if sep !in s then [s]
    else
      var i := IndexOf(s, sep);
      [s[..i]] + Split(s[i + 1..], sep)
  }

  /** Python's `sep.join(parts)`. */
  function Join(parts: seq<string>, sep: string): string
  {
    if |parts| == 0 then []
    else if |parts| == 1 then parts[0]
    else parts[0] + sep + Join(parts[1..], sep)
  }

  /** A character found in neither the pieces nor the separator is not in the join. */
  lemma {:induction false} JoinAvoids(parts: seq<string>, sep: string, c: char)
    requires c !in sep
    requires forall i :: 0 <= i < |parts| ==> c !in parts[i]
    ensures c !in Join(parts, sep)
  {
    if |parts| > 1 {
      JoinAvoids(parts[1..], sep, c);
    }
  }

  /** Joining the pieces of a split with the separator restores the string. */
  lemma {:induction false} JoinSplit(s: string, sep: char)
    ensures Join(Split(s, sep), [sep]) == s
    decreases |s|
  {
    if sep in s {
      var i := IndexOf(s, sep);
      JoinSplit(s[i + 1..], sep);
      assert s == s[..i] + [sep] + s[i + 1..];
    }
  }

  /** Splitting a join recovers the pieces when none of them holds the separator. */
  lemma {:induction false} SplitJoin(parts: seq<string>, sep: char)
    requires |parts| >= 1
    requires forall i :: 0 <= i < |parts| ==> sep !in parts[i]
    ensures Split(Join(parts, [sep]), sep) == parts
    decreases |parts|
  {
    if |parts| == 1 {
    } else {
      var s := Join(parts, [sep]);
      var rest := Join(parts[1..], [sep]);
      assert s == parts[0] + [sep] + rest;
      assert s[|parts[0]|] == sep;
      assert s[..|parts[0]|] == parts[0];
      var i := IndexOf(s, sep);
      assert i == |parts[0]|;
      assert s[i + 1..] == rest;
      SplitJoin(parts[1..], sep);
    }
  }

  /** The whitespace `int()` skips around its digits: the ASCII space and `\t` to `\r`,
      and every non-ASCII character `str.isspace` accepts. The ASCII separators `\x1c` to
      `\x1f` are whitespace to `str.isspace` but not to `int`, which passes ASCII text
      through unchanged and then skips only C's ASCII whitespace. */
  predicate IsSpace(c: char) {
    || c == ' ' || '\t' <= c <= '\r'
    || c == '\U{85}' || c == '\U{a0}' || c == '\U{1680}'
    || '\U{2000}' <= c <= '\U{200a}' || c == '\U{2028}' || c == '\U{2029}'
    || c == '\U{202f}' || c == '\U{205f}' || c == '\U{3000}'
  }

  function StripLeft(s: string): (r: string)
    ensures |r| <= |s|
  {
    if |s| > 0 && IsSpace(s[0]) then StripLeft(s[1..]) else s
  }

  function StripRight(s: string): (r: string)
    ensures |r| <= |s|
  {
    if |s| > 0 && IsSpace(s[|s| - 1]) then StripRight(s[..|s| - 1]) else s
  }

  /** The trimming `int()` applies before reading a number: leading and trailing
      whitespace in the sense of `IsSpace` are dropped (`StripSpec`). */
  function Strip(s: string): string {
    StripRight(StripLeft(s))
  }

  /** `StripLeft` drops exactly the leading run of whitespace. */
  lemma {:induction false} StripLeftSpec(s: string)
    ensures var r := StripLeft(s);
      (r == [] || !IsSpace(r[0])) && r == s[|s| - |r|..] &&
      forall i :: 0 <= i < |s| - |r| ==> IsSpace(s[i])
  {
    if |s| > 0 && IsSpace(s[0]) {
      StripLeftSpec(s[1..]);
    }
  }

  /** `StripRight` drops exactly the trailing run of whitespace. */
  lemma {:induction false} StripRightSpec(s: string)
    ensures var r := StripRight(s);
      (r == [] || !IsSpace(r[|r| - 1])) && r == s[..|r|] &&
      forall i :: |r| <= i < |s| ==> IsSpace(s[i])
  {
    if |s| > 0 && IsSpace(s[|s| - 1]) {
      StripRightSpec(s[..|s| - 1]);
    }
  }

  /** `Strip` removes exactly the leading and the trailing run of whitespace: the result is
      a contiguous part of the input with only whitespace around it, and it neither starts
      nor ends with whitespace. A string that neither starts nor ends with whitespace is
      left as it is (`StripKeeps`). */
  lemma StripSpec(s: string)
    ensures var r := Strip(s); r == [] || (!IsSpace(r[0]) && !IsSpace(r[|r| - 1]))
    ensures var r := Strip(s); exists i, j | 0 <= i <= j <= |s| ::
      r == s[i..j] && (forall k | 0 <= k < i :: IsSpace(s[k])) && (forall k | j <= k < |s| :: IsSpace(s[k]))
    ensures s == [] || (!IsSpace(s[0]) && !IsSpace(s[|s| - 1])) ==> Strip(s) == s
  {
    var l := StripLeft(s);
    StripLeftSpec(s);
    StripRightSpec(l);
    var r := StripRight(l);
    assert r == [] || r[0] == l[0];
    var i, j := |s| - |l|, |s| - |l| + |r|;
    assert r == s[i..j];
    forall k | j <= k < |s|
      ensures IsSpace(s[k])
    {
      assert s[k] == l[k - i];
    }
    StripKeeps(s);
  }

  /** A string that neither starts nor ends with whitespace is left as it is. */
  lemma StripKeeps(s: string)
    ensures s == [] || (!IsSpace(s[0]) && !IsSpace(s[|s| - 1])) ==> Strip(s) == s
  {
    if s != [] && !IsSpace(s[0]) && !IsSpace(s[|s| - 1]) {
      assert StripLeft(s) == s;
    }
  }
}

=== FILE: train_loop.dfy ===
/** The epoch loop of `main()` (main/train.py): each epoch sets the learning rate, runs
    the iterations the data loader yields, saves a snapshot on the checkpoint schedule and
    reports the epoch's average losses. The observable behaviour is a trace of events
    that stops where Python would raise. */
module TrainLoop {
  import opened Results
  import opened Ints
  import opened LrSchedule
  import opened Losses

  /** The configuration the loop reads: `cfg.end_epoch`, `cfg.lr_dec_epoch`,
      `cfg.checkpoint_freq` and `args.log_steps`. */
  datatype TrainConfig = TrainConfig(endEpoch: int, thresholds: seq<int>, checkpointFreq: int, logSteps: int)

  /** What one run of the loop does that can be observed from outside. */
  datatype Event =
    | LrSet(epoch: int, exponent: nat)      // `trainer.set_lr(epoch)` with this decay exponent
    | Logged(epoch: int, itr: nat)          // `trainer.logger.info` for iteration `itr`
    | Saved(fileNumber: int, storedEpoch: int)  // `save_model({"epoch": storedEpoch, ...}, fileNumber)`
    | Reported(epoch: int, totalLoss: real, losses: seq<LossTerm>)  // `accelerator.log`

  /** Where the loop raises. */
  datatype Failure =
    | NoThresholds(epoch: int)                            // `cfg.lr_dec_epoch[-1]` on an empty list
    | BadIteration(epoch: int, itr: nat, cause: LossFailure)  // the loss dict cannot be taken in
    | ZeroLogSteps(epoch: int)                            // `itr % args.log_steps` with 0
    | ZeroCheckpointFreq(epoch: int)                      // `(epoch + 1) % cfg.checkpoint_freq` with 0
    | EmptyEpoch(epoch: int)                              // `tr_loss / global_step` with no iteration

  /** The events of a run and the failure that ended it, if any. */
  datatype Run = Run(events: seq<Event>, failure: Option<Failure>)

  /** The iterations run so far: their events, and the loop state or the failure. */
  datatype Progress = Progress(events: seq<Event>, state: Result<Acc, Failure>)

  /** Iteration `itr` of `n` is logged: `itr % log_steps == 0 or itr == n - 1`. */
  predicate LogsAt(itr: nat, n: nat, logSteps: int)
    requires logSteps != 0
  {
    PyMod(itr, logSteps) == 0 || itr == n - 1
  }

  /** The loss bookkeeping after the first `k` iterations of an epoch whose loader yields
      the loss dicts `steps`, or the failure of the iteration that raised. Each iteration
      takes its loss dict in, then evaluates the logging rule, whose `%` raises when
      `log_steps` is 0. */
  function Bookkeeping(epoch: int, steps: seq<LossDict>, logSteps: int, k: nat): Result<Acc, Failure>
    requires k <= |steps|
  {
    if k == 0 then Ok(Fresh)
    else
      match Bookkeeping(epoch, steps, logSteps, k - 1)
      case Err(f) => Err(f)
      case Ok(acc) =>
        match Step(acc, steps[k - 1])
        case Err(f) => Err(BadIteration(epoch, k - 1, f))
        case Ok(acc') => if logSteps == 0 then Err(ZeroLogSteps(epoch)) else Ok(acc')
  }

  /** The log lines of the first `k` of `n` iterations, where `completes(j)` says whether
      the first `j` iterations ran to their end: iteration `j - 1` writes one when it
      completed and the logging rule holds for it. */
  function LogEvents(epoch: int, n: nat, logSteps: int, completes: nat -> bool, k: nat): (evs: seq<Event>)
    ensures forall i :: 0 <= i < |evs| ==> evs[i].Logged? && evs[i].epoch == epoch
  {
    if k == 0 then []
    else
      LogEvents(epoch, n, logSteps, completes, k - 1) +
      (if logSteps != 0 && completes(k) && LogsAt(k - 1, n, logSteps) then [Logged(epoch, k - 1)] else [])
  }

  /** Whether the first `j` iterations all ran to their end. */
  predicate Completes(epoch: int, steps: seq<LossDict>, logSteps: int, j: nat) {
    j <= |steps| && Bookkeeping(epoch, steps, logSteps, j).Ok?
  }

  /** The first `k` iterations of an epoch: their log lines, and the loop state or the
      failure. */
  function Iterations(epoch: int, steps: seq<LossDict>, logSteps: int, k: nat): (p: Progress)
    requires k <= |steps|
    ensures forall i :: 0 <= i < |p.events| ==> p.events[i].Logged? && p.events[i].epoch == epoch
  {
    Progress(LogEvents(epoch, |steps|, logSteps, (j: nat) => Completes(epoch, steps, logSteps, j), k),
             Bookkeeping(epoch, steps, logSteps, k))
  }

  /** With a non-zero `log_steps`, the iterations keep exactly the loss bookkeeping of
      `Aggregate`, failing at the same iteration for the same reason. */
  lemma {:induction false} BookkeepingAggregate(epoch: int, steps: seq<LossDict>, logSteps: int, k: nat)
    requires k <= |steps| && logSteps != 0
    ensures var st := Bookkeeping(epoch, steps, logSteps, k);
      match Aggregate(steps[..k])
      case Ok(a) => st == Ok(a)
      case Err(e) => st == Err(BadIteration(epoch, e.0, e.1))
  {
    if k > 0 {
      BookkeepingAggregate(epoch, steps, logSteps, k - 1);
      assert steps[..k][..k - 1] == steps[..k - 1];
      assert steps[..k][k - 1] == steps[k - 1];
    }
  }

  /** An iteration completes only after all earlier ones did, and only with a non-zero
      `log_steps`. */
  lemma BookkeepingPrefixOk(epoch: int, steps: seq<LossDict>, logSteps: int, k: nat)
    requires 0 < k <= |steps|
    requires Bookkeeping(epoch, steps, logSteps, k).Ok?
    ensures Bookkeeping(epoch, steps, logSteps, k - 1).Ok? && logSteps != 0
  {
  }

  /** The log lines of the first `k` of `n` iterations, by the logging rule alone. */
  function LogLines(epoch: int, n: nat, logSteps: int, k: nat): seq<Event>
    requires logSteps != 0
  {
    if k == 0 then []
    else LogLines(epoch, n, logSteps, k - 1) + (if LogsAt(k - 1, n, logSteps) then [Logged(epoch, k - 1)] else [])
  }

  /** When the first `k` iterations all complete, their log lines do not depend on the
      losses. */
  lemma {:induction false} CompletedLog(epoch: int, n: nat, logSteps: int, completes: nat -> bool, k: nat)
    requires logSteps != 0
    requires 0 < k ==> completes(k)
    requires forall j: nat :: 1 < j <= k && completes(j) ==> completes(j - 1)
    ensures LogEvents(epoch, n, logSteps, completes, k) == LogLines(epoch, n, logSteps, k)
    decreases k
  {
    if k > 0 {
      CompletedLog(epoch, n, logSteps, completes, k - 1);
    }
  }

  /** The log lines of successful iterations do not depend on the losses. */
  lemma IterationsLog(epoch: int, steps: seq<LossDict>, logSteps: int, k: nat)
    requires k <= |steps| && logSteps != 0
    requires Iterations(epoch, steps, logSteps, k).state.Ok?
    ensures Iterations(epoch, steps, logSteps, k).events == LogLines(epoch, |steps|, logSteps, k)
  {
    forall j: nat | 1 < j <= k && Completes(epoch, steps, logSteps, j)
      ensures Completes(epoch, steps, logSteps, j - 1)
    {
      BookkeepingPrefixOk(epoch, steps, logSteps, j);
    }
    CompletedLog(epoch, |steps|, logSteps, (j: nat) => Completes(epoch, steps, logSteps, j), k);
  }

  /** Iteration `i` has a log line exactly when the logging rule holds for it. */
  lemma {:induction false} LogLinesSpec(epoch: int, n: nat, logSteps: int, k: nat, i: nat)
    requires logSteps != 0
    ensures Logged(epoch, i) in LogLines(epoch, n, logSteps, k) <==> i < k && LogsAt(i, n, logSteps)
    decreases k
  {
    if k > 0 {
      LogLinesSpec(epoch, n, logSteps, k - 1, i);
    }
  }

  /** Once the iterations succeed, iteration `i` is logged exactly when the logging rule
      holds for it. */
  lemma LoggedIffRule(epoch: int, steps: seq<LossDict>, logSteps: int, k: nat, i: nat)
    requires k <= |steps| && logSteps != 0
    requires Iterations(epoch, steps, logSteps, k).state.Ok?
    ensures Logged(epoch, i) in Iterations(epoch, steps, logSteps, k).events <==> i < k && LogsAt(i, |steps|, logSteps)
  {
    IterationsLog(epoch, steps, logSteps, k);
    LogLinesSpec(epoch, |steps|, logSteps, k, i);
  }

  /** The first and the last iteration of a successful epoch are always logged. */
  lemma FirstAndLastLogged(epoch: int, steps: seq<LossDict>, logSteps: int)
    requires |steps| > 0 && logSteps != 0
    requires Iterations(epoch, steps, logSteps, |steps|).state.Ok?
    ensures Logged(epoch, 0) in Iterations(epoch, steps, logSteps, |steps|).events
    ensures Logged(epoch, |steps| - 1) in Iterations(epoch, steps, logSteps, |steps|).events
  {
    LoggedIffRule(epoch, steps, logSteps, |steps|, 0);
    LoggedIffRule(epoch, steps, logSteps, |steps|, |steps| - 1);
  }

  /** `log_steps == 0` stops the first iteration: with a ZeroDivisionError, unless the
      first loss dict is already empty. */
  lemma {:induction false} ZeroLogStepsFails(epoch: int, steps: seq<LossDict>, k: nat)
    requires 0 < k <= |steps|
    ensures Bookkeeping(epoch, steps, 0, k) ==
      if steps[0] == [] then Err(BadIteration(epoch, 0, EmptyLoss)) else Err(ZeroLogSteps(epoch))
  {
    if k > 1 {
      ZeroLogStepsFails(epoch, steps, k - 1);
    }
  }

  /** A snapshot is saved after `epoch`: `(epoch + 1) % checkpoint_freq == 0 or epoch + 1 == end_epoch`. */
  predicate SaveRule(cfg: TrainConfig, epoch: int)
    requires cfg.checkpointFreq != 0
  {
    PyMod(epoch + 1, cfg.checkpointFreq) == 0 || epoch + 1 == cfg.endEpoch
  }

  /** One epoch: `set_lr`, the iterations, the snapshot, then the division by
      `global_step` for the report. */
  function RunEpoch(cfg: TrainConfig, epoch: int, steps: seq<LossDict>): (r: Run)
    ensures r.failure.None? ==> |r.events| > 0 && r.events[|r.events| - 1].Reported?
  {
    match LrExponent(cfg.thresholds, epoch)
    case None => Run([], Some(NoThresholds(epoch)))
    case Some(x) =>
      var it := Iterations(epoch, steps, cfg.logSteps, |steps|);
      var head := [LrSet(epoch, x)] + it.events;
      match it.state
      case Err(f) => Run(head, Some(f))
      case Ok(acc) =>
        if cfg.checkpointFreq == 0 then Run(head, Some(ZeroCheckpointFreq(epoch)))
        else
          var saved := head + (if SaveRule(cfg, epoch) then [Saved(epoch + 1, epoch)] else []);
          match Averages(acc)
          case None => Run(saved, Some(EmptyEpoch(epoch)))
          case Some(avg) => Run(saved + [Reported(epoch + 1, avg.0, avg.1)], None)
  }

  /** `for epoch in range(start, end)`, stopping at the first failure. */
  function Train(cfg: TrainConfig, epoch: int, stepsOf: int -> seq<LossDict>): Run
    decreases cfg.endEpoch - epoch
  {
    if epoch >= cfg.endEpoch then Run([], None)
    else
      var r := RunEpoch(cfg, epoch, stepsOf(epoch));
      if r.failure.Some? then r
      else
        var rest := Train(cfg, epoch + 1, stepsOf);
        Run(r.events + rest.events, rest.failure)
  }

  /** An epoch completes exactly when the schedule has thresholds, the loader yields at
      least one iteration, every loss dict can be taken in, and neither `log_steps` nor
      `checkpoint_freq` is 0. */
  lemma EpochSucceeds(cfg: TrainConfig, epoch: int, steps: seq<LossDict>)
    ensures RunEpoch(cfg, epoch, steps).failure.None? <==>
      |cfg.thresholds| > 0 && |steps| > 0 && KeysConsistent(steps) &&
      cfg.logSteps != 0 && cfg.checkpointFreq != 0
    ensures |cfg.thresholds| == 0 ==> RunEpoch(cfg, epoch, steps) == Run([], Some(NoThresholds(epoch)))
  {
    if cfg.logSteps != 0 {
      BookkeepingAggregate(epoch, steps, cfg.logSteps, |steps|);
      assert steps[..|steps|] == steps;
      AggregateSpec(steps);
    } else if |steps| > 0 {
      ZeroLogStepsFails(epoch, steps, |steps|);
    }
  }

  /** The events of a completed epoch: the rate, the logged iterations, the snapshot if
      the rule asks for one, and the report of the averages. */
  lemma EpochShape(cfg: TrainConfig, epoch: int, steps: seq<LossDict>) returns (logs: seq<Event>, avg: (real, seq<LossTerm>))
    requires RunEpoch(cfg, epoch, steps).failure.None?
    ensures cfg.checkpointFreq != 0 && LrExponent(cfg.thresholds, epoch).Some?
    ensures forall i :: 0 <= i < |logs| ==> logs[i].Logged?
    ensures Aggregate(steps).Ok? && Averages(Aggregate(steps).value) == Some(avg)
    ensures RunEpoch(cfg, epoch, steps).events ==
      [LrSet(epoch, LrExponent(cfg.thresholds, epoch).value)] + logs +
      (if SaveRule(cfg, epoch) then [Saved(epoch + 1, epoch)] else []) +
      [Reported(epoch + 1, avg.0, avg.1)]
  {
    EpochSucceeds(cfg, epoch, steps);
    BookkeepingAggregate(epoch, steps, cfg.logSteps, |steps|);
    assert steps[..|steps|] == steps;
    var it := Iterations(epoch, steps, cfg.logSteps, |steps|);
    logs := it.events;
    avg := Averages(it.state.value).value;
  }

  /** A completed epoch starts by setting the scheduled rate and saves snapshot
      `epoch + 1` holding `epoch` exactly when the checkpoint rule holds, and no other. */
  lemma EpochEvents(cfg: TrainConfig, epoch: int, steps: seq<LossDict>)
    requires RunEpoch(cfg, epoch, steps).failure.None?
    ensures cfg.checkpointFreq != 0
    ensures var evs := RunEpoch(cfg, epoch, steps).events;
      evs[0] == LrSet(epoch, LrExponent(cfg.thresholds, epoch).value) &&
      (Saved(epoch + 1, epoch) in evs <==> SaveRule(cfg, epoch)) &&
      (forall i :: 0 <= i < |evs| && evs[i].Saved? ==> evs[i] == Saved(epoch + 1, epoch))
  {
    var logs, avg := EpochShape(cfg, epoch, steps);
    EpochExtracts(cfg, epoch, steps);
    SavesOfSpec(RunEpoch(cfg, epoch, steps).events);
  }

  /** The saves extracted from a trace are exactly its `Saved` events. */
  lemma {:induction false} SavesOfSpec(evs: seq<Event>)
    ensures forall n, e :: Saved(n, e) in evs <==> (n, e) in SavesOf(evs)
    ensures forall i :: 0 <= i < |evs| && evs[i].Saved? ==> (evs[i].fileNumber, evs[i].storedEpoch) in SavesOf(evs)
  {
    if |evs| > 0 {
      SavesOfSpec(evs[1..]);
      assert forall i :: 0 < i < |evs| ==> evs[i] == evs[1..][i - 1];
      assert forall n, e :: Saved(n, e) in evs <==> Saved(n, e) == evs[0] || Saved(n, e) in evs[1..];
    }
  }

  /** A completed epoch ends by reporting, for epoch `epoch + 1`, the summed losses
      divided by its number of iterations: the total and each key. */
  lemma EpochReport(cfg: TrainConfig, epoch: int, steps: seq<LossDict>, k: string)
    requires RunEpoch(cfg, epoch, steps).failure.None?
    ensures |steps| > 0
    ensures var evs := RunEpoch(cfg, epoch, steps).events;
      var last := evs[|evs| - 1];
      last.epoch == epoch + 1 &&
      last.totalLoss == TotalSum(steps) / (|steps| as real) &&
      ValueOr0(last.losses, k) == KeySum(steps, k) / (|steps| as real)
  {
    var logs, avg := EpochShape(cfg, epoch, steps);
    EpochSucceeds(cfg, epoch, steps);
    AveragesSpec(steps, k);
  }

  /** An epoch whose loader yields nothing still saves its snapshot on schedule, and only
      then fails at the division by `global_step`. */
  lemma EmptyEpochSavesThenFails(cfg: TrainConfig, epoch: int)
    requires |cfg.thresholds| > 0 && cfg.checkpointFreq != 0
    ensures RunEpoch(cfg, epoch, []).failure == Some(EmptyEpoch(epoch))
    ensures Saved(epoch + 1, epoch) in RunEpoch(cfg, epoch, []).events <==> SaveRule(cfg, epoch)
  {
  }

  /** The epochs whose rate a run set, in order. */
  function LrEpochs(evs: seq<Event>): seq<int> {
    if |evs| == 0 then [] else (if evs[0].LrSet? then [evs[0].epoch] else []) + LrEpochs(evs[1..])
  }

  /** The snapshots a run saved, as (file number, stored epoch), in order. */
  function SavesOf(evs: seq<Event>): seq<(int, int)> {
    if |evs| == 0 then []
    else (if evs[0].Saved? then [(evs[0].fileNumber, evs[0].storedEpoch)] else []) + SavesOf(evs[1..])
  }

  /** What a run set and saved over two stretches of events is what it set and saved over
      each, in order. */
  lemma ExtractAppend(a: seq<Event>, b: seq<Event>)
    ensures LrEpochs(a + b) == LrEpochs(a) + LrEpochs(b)
    ensures SavesOf(a + b) == SavesOf(a) + SavesOf(b)
  {
    LrEpochsAppend(a, b);
    SavesOfAppend(a, b);
  }

  lemma {:induction false} LrEpochsAppend(a: seq<Event>, b: seq<Event>)
    ensures LrEpochs(a + b) == LrEpochs(a) + LrEpochs(b)
  {
    if |a| == 0 {
      assert a + b == b;
    } else {
      assert (a + b)[0] == a[0] && (a + b)[1..] == a[1..] + b;
      LrEpochsAppend(a[1..], b);
    }
  }

  lemma {:induction false} SavesOfAppend(a: seq<Event>, b: seq<Event>)
    ensures SavesOf(a + b) == SavesOf(a) + SavesOf(b)
  {
    if |a| == 0 {
      assert a + b == b;
    } else {
      assert (a + b)[0] == a[0] && (a + b)[1..] == a[1..] + b;
      SavesOfAppend(a[1..], b);
    }
  }

  lemma {:induction false} OnlyLogged(evs: seq<Event>)
    requires forall i :: 0 <= i < |evs| ==> evs[i].Logged?
    ensures LrEpochs(evs) == [] && SavesOf(evs) == []
  {
    if |evs| > 0 {
      OnlyLogged(evs[1..]);
    }
  }

  /** A completed epoch sets the rate once, for itself, and saves at most its own snapshot. */
  lemma EpochExtracts(cfg: TrainConfig, epoch: int, steps: seq<LossDict>)
    requires RunEpoch(cfg, epoch, steps).failure.None?
    ensures LrEpochs(RunEpoch(cfg, epoch, steps).events) == [epoch]
    ensures cfg.checkpointFreq != 0
    ensures SavesOf(RunEpoch(cfg, epoch, steps).events) == if SaveRule(cfg, epoch) then [(epoch + 1, epoch)] else []
  {
    var logs, avg := EpochShape(cfg, epoch, steps);
    var l: seq<Event> := [LrSet(epoch, LrExponent(cfg.thresholds, epoch).value)];
    var s: seq<Event> := if SaveRule(cfg, epoch) then [Saved(epoch + 1, epoch)] else [];
    var r: seq<Event> := [Reported(epoch + 1, avg.0, avg.1)];
    OnlyLogged(logs);
    ExtractAppend(l, logs);
    ExtractAppend(l + logs, s);
    ExtractAppend(l + logs + s, r);
  }

  /** `range(start, end)`. */
  function Range(start: int, end: int): (r: seq<int>)
    ensures |r| == if start < end then end - start else 0
    ensures forall i :: 0 <= i < |r| ==> r[i] == start + i
    decreases end - start
  {
    if start >= end then [] else [start] + Range(start + 1, end)
  }

  /** The snapshots the checkpoint rule asks for from `epoch` to the end, in order. */
  function Schedule(cfg: TrainConfig, epoch: int): (r: seq<(int, int)>)
    requires cfg.checkpointFreq != 0
    decreases cfg.endEpoch - epoch
  {
    if epoch >= cfg.endEpoch then []
    else (if SaveRule(cfg, epoch) then [(epoch + 1, epoch)] else []) + Schedule(cfg, epoch + 1)
  }

  /** A run that does not fail sets the rate for exactly the epochs `start .. end - 1`, in
      order, and saves exactly the scheduled snapshots. */
  lemma {:induction false} TrainSpec(cfg: TrainConfig, epoch: int, stepsOf: int -> seq<LossDict>)
    requires Train(cfg, epoch, stepsOf).failure.None?
    ensures LrEpochs(Train(cfg, epoch, stepsOf).events) == Range(epoch, cfg.endEpoch)
    ensures epoch < cfg.endEpoch ==>
      cfg.checkpointFreq != 0 && SavesOf(Train(cfg, epoch, stepsOf).events) == Schedule(cfg, epoch)
    decreases cfg.endEpoch - epoch
  {
    if epoch < cfg.endEpoch {
      var r := RunEpoch(cfg, epoch, stepsOf(epoch));
      var rest := Train(cfg, epoch + 1, stepsOf);
      EpochSucceeds(cfg, epoch, stepsOf(epoch));
      EpochExtracts(cfg, epoch, stepsOf(epoch));
      TrainSpec(cfg, epoch + 1, stepsOf);
      ExtractAppend(r.events, rest.events);
    }
  }

  /** Every scheduled snapshot is `(e + 1, e)` for an epoch `e` of the run on which the
      checkpoint rule holds, and every such epoch is scheduled. */
  lemma {:induction false} ScheduleSpec(cfg: TrainConfig, epoch: int, e: int)
    requires cfg.checkpointFreq != 0
    ensures (e + 1, e) in Schedule(cfg, epoch) <==> epoch <= e < cfg.endEpoch && SaveRule(cfg, e)
    ensures forall s | s in Schedule(cfg, epoch) :: s.0 == s.1 + 1 && epoch <= s.1 < cfg.endEpoch
    decreases cfg.endEpoch - epoch
  {
    if epoch < cfg.endEpoch {
      ScheduleSpec(cfg, epoch + 1, e);
    }
  }

  /** The last epoch is always saved, and it is the last snapshot of the run. */
  lemma {:induction false} ScheduleEndsAtEnd(cfg: TrainConfig, epoch: int)
    requires cfg.checkpointFreq != 0 && epoch < cfg.endEpoch
    ensures |Schedule(cfg, epoch)| > 0
    ensures Schedule(cfg, epoch)[|Schedule(cfg, epoch)| - 1] == (cfg.endEpoch, cfg.endEpoch - 1)
    decreases cfg.endEpoch - epoch
  {
    if epoch + 1 < cfg.endEpoch {
      ScheduleEndsAtEnd(cfg, epoch + 1);
    }
  }

  /** The snapshot numbers of a run strictly increase, so no snapshot overwrites another. */
  lemma {:induction false} ScheduleIncreasing(cfg: TrainConfig, epoch: int)
    requires cfg.checkpointFreq != 0
    ensures forall i, j :: 0 <= i < j < |Schedule(cfg, epoch)| ==> Schedule(cfg, epoch)[i].0 < Schedule(cfg, epoch)[j].0
    decreases cfg.endEpoch - epoch
  {
    if epoch < cfg.endEpoch {
      ScheduleIncreasing(cfg, epoch + 1);
      ScheduleSpec(cfg, epoch + 1, epoch);
      var rest := Schedule(cfg, epoch + 1);
      assert forall j :: 0 <= j < |rest| ==> rest[j] in rest;
    }
  }

  /** A run that starts at or after the end runs no epoch. */
  lemma NothingLeft(cfg: TrainConfig, epoch: int, stepsOf: int -> seq<LossDict>)
    requires cfg.endEpoch <= epoch
    ensures Train(cfg, epoch, stepsOf) == Run([], None)
  {
  }

  /** An empty list of decay epochs stops the very first epoch, before anything happens. */
  lemma NoThresholdsStops(cfg: TrainConfig, epoch: int, stepsOf: int -> seq<LossDict>)
    requires |cfg.thresholds| == 0 && epoch < cfg.endEpoch
    ensures Train(cfg, epoch, stepsOf) == Run([], Some(NoThresholds(epoch)))
  {
    EpochSucceeds(cfg, epoch, stepsOf(epoch));
  }
}
